=== FILE: README.md ===
# Raspberry Pi camera link: a Dafny model

The system streams a Raspberry Pi camera to a desktop viewer. On the camera
side, a client starts `libcamera-vid`, which writes MJPEG to its standard
output. The client reads that output in 4096-byte chunks and sends each chunk
over a TCP connection to port 5001. After a connection error it waits five
seconds and prompts again for an address.

On the viewer side, a server thread appends every received chunk to a byte
buffer. It then runs the frame extraction loop over the buffer. While the
buffer holds both a start-of-image marker `FF D8` and an end-of-image marker
`FF D9` (table B.1 of ITU-T T.81), the loop does four things:

- it cuts `buffer[start:end]`, where `start` is the first start marker and
  `end` is two bytes past the first end marker;
- it keeps `buffer[end:]`;
- it hands the cut bytes to the image decoder;
- it overwrites the single "latest frame" slot when decoding succeeds.

A GUI timer shows the latest frame. It turns the frame by the chosen number
of quarter-turns and, while a recording is open, writes the frame to the
video file.

The model covers two viewer servers and one client:

- `Server/server.py` serves one connection and then stops.
- `Server/server2.py` accepts connections forever, resets its buffer on each
  accept and clears the latest frame on each disconnect.
- `Client/client2.py` is the camera-side client.

## Model layout

| module (file) | what it models |
|---|---|
| `Markers` (markers.dfy) | bytes, the two JPEG markers, and `bytes.find` (`-1` when absent) |
| `FrameDelimiter` (frame_delimiter.dfy) | the extraction loop: one iteration (`Step`), the whole loop (`Extract`, `ExtractFrames`), and chunk independence |
| `DelimiterProperties` (delimiter_properties.dfy) | what the loop yields on whole streams, and a reference scan (start marker, then the next end marker) that the loop is compared with |
| `FrameSlot` (frame_slot.dfy) | the latest-frame slot: decode-and-overwrite over a batch of slices |
| `Receiver` (receiver.dfy) | the accept/receive/disconnect state machine of `Server/server2.py` |
| `SingleReceiver` (single_receiver.dfy) | the single-connection read loop of `Server/server.py` |
| `Viewer` (viewer.dfy) | the rotation setting, the recording toggle, and the refresh with its write guard |
| `Sender` (sender.dfy) | `start_stream`: the read/send loop, its exits and its cleanup |
| `Reconnect` (reconnect.dfy) | `str.strip`, `get_server_address`, and the prompt/connect/retry loop of `main` |
| `Seqs`, `Optional` | sequence helpers and `Option` |

The image decoder is two function parameters. `decode: seq<Byte> -> Option<F>`
gives what `cv2.imdecode` returns for a slice, so a slice it cannot decode is
`None`. `raises: seq<Byte> -> bool` says whether it throws on that slice
instead. Decoded frames are an opaque type `F`, and video writers are an
opaque type `W`.

Every other outside call is an oracle:

- `recv` and `accept` are events of type `Receiver.Event` or
  `SingleReceiver.Read`;
- the capture pipe and `sendall` are a sequence of `Sender.Pull`, in which
  `ReadFails` is a pipe read that raises;
- console input is a sequence of lines;
- `gethostbyname` is a function `resolve: string -> Reconnect.Lookup`. A
  lookup returns an address (`Resolved`), raises `socket.gaierror`
  (`NotFound`), or raises anything else (`Fails`). No handler catches the
  last case; an example is the `UnicodeError` the IDNA codec raises for a
  host name with an empty label, such as `a..b`;
- each connect attempt is a `Reconnect.Attempt`: the connect raises
  (`ConnectFails`), `start_stream` raises before its loop (`StartRaises`), or
  the stream runs on a capture oracle (`Connects`).

## Model

| member | source | states |
|---|---|---|
| Markers.Find | Server/server2.py:273-274 | `bytes.find` of a two-byte marker: `-1` exactly when the marker does not occur; otherwise the marker sits at the result and at no earlier position |
| FrameDelimiter.Step | Server/server2.py:273-276 | one iteration consumes at least the two bytes of the end marker; what it keeps is a suffix of the buffer; what it cuts is empty or frame-shaped (starts with `FF D8`, ends with `FF D9`, no `FF D9` before that end, length at least 4) |
| FrameDelimiter.StepKeepsSuffixAfterFirstEoi | Server/server2.py:274-276 | the buffer kept after one iteration is exactly what follows the first end marker of the buffer, so stray bytes before the start marker are dropped |
| FrameDelimiter.StepSlice | Server/server2.py:273-275 | the slice is empty exactly when the first end marker precedes the first start marker; otherwise it is frame-shaped, ends where the consumed prefix ends, and the bytes dropped in front of it hold no start marker |
| FrameDelimiter.Extract | Server/server2.py:272-276 | the loop exits only when a marker is missing; each slice costs at least two bytes; the residue is a suffix of the input; every slice is empty or frame-shaped |
| FrameDelimiter.ExtractFrames | Server/server.py:76-86 | the loop run in place: it raises exactly when the decoder raises on one of the slices `Extract` cuts; without a raise it leaves the residue of `Extract`, and the latest frame is the decode of the last slice that decoded, or the previous frame if none did |
| FrameDelimiter.DrainSpec | Server/server2.py:272-281 | the loop with decoding (`Drain`) raises exactly when the decoder raises on a slice `Extract` cuts; the frame is then the slices before the first raising one (`FirstRaising`) published in order; without a raise the buffer is the residue of `Extract`, and after one the buffer still holds exactly the slices after the raising one and the same residue |
| FrameDelimiter.DrainWithoutRaise | Server/server2.py:272-281 | when the decoder raises on no slice, the loop with decoding is `Extract` followed by publishing all its slices in order |
| FrameDelimiter.PartialFrameRetained | Server/server2.py:272 | a buffer lacking the end marker (a partial frame) or lacking the start marker is kept whole, and nothing is cut |
| FrameDelimiter.ExtractAppend | Server/server2.py:266-276 | extracting from `a + b` cuts the slices of `a`, then the slices of `a`'s residue followed by `b` |
| FrameDelimiter.ChunkBoundariesIrrelevant | Server/server2.py:266-276 | from any exhausted buffer, feeding chunks one read at a time (`FeedAll`) gives the same slices and residue as extracting from their concatenation |
| DelimiterProperties.FramedStreamExtracts | Server/server.py:73-80 | well-formed frames separated by marker-free stray bytes and followed by an uncuttable tail come out exactly, in order, and the residue is exactly the tail |
| DelimiterProperties.ConcatenatedFramesExtract | Server/server.py:73-80 | back-to-back well-formed frames come out exactly, in order, with an empty residue |
| DelimiterProperties.NonEmptySlicesAreReferenceFrames | Server/server2.py:272-276 | with the empty slices removed, the code's slices are exactly the frames of the reference scan, in order |
| DelimiterProperties.TwoChunkExample | Server/server2.py:266-276 | chunks `FF D8 41` then `FF D9 FF D8 42 FF D9`: no slice after the first chunk, both frames after the second, empty residue |
| DelimiterProperties.StrayEndMarkerExample | Server/server2.py:273-276 | `FF D9` before a frame: the code cuts an empty slice and then the frame, while the reference scan finds only the frame |
| FrameSlot.Publish | Server/server2.py:278-281 | each slice's decode goes through `Overwrite`, which replaces the frame only when the decode succeeded; after a batch, the slot is unchanged or holds the decode of one of the slices, and if no slice decodes it is unchanged |
| FrameSlot.LastDecoded | Server/server2.py:278-281 | reference definition: `None` exactly when no slice decodes, and otherwise the decode of a slice |
| FrameSlot.PublishKeepsLastDecoded | Server/server2.py:278-281 | the slot after a batch is the decode of the last slice that decoded, in stream order, or its old content when none did |
| FrameSlot.PublishAppend | Server/server2.py:278-281 | publishing two batches in turn equals publishing their concatenation |
| FrameSlot.OverwriteNotQueue | Server/server2.py:280-281 | of two decodable frames published in turn, only the second remains visible |
| Receiver.Next | Server/server2.py:258-285 | accept sets the connection alive, empties the buffer and keeps the frame; an empty read or an exception from `recv` clears the frame and the connection flag; a non-empty read keeps the connection exactly when the decoder raises on none of the slices it cuts, and then leaves the residue of the extraction and the batch published in order, while a decoder throw clears the frame and the flag |
| Receiver.InitInvariant | Server/server2.py:176-178 | the start-up state (empty buffer, no frame, no live connection) satisfies the invariant: no frame without a live connection, and an exhausted buffer on a live one |
| Receiver.NextInvariant | Server/server2.py:258-285 | every event the server can see keeps that invariant |
| Receiver.RunInvariant | Server/server2.py:258-286 | the invariant holds after every possible history of events the accept loop can see (`Run`) |
| Receiver.LatestChangesOnlyByDecodeOrDisconnect | Server/server2.py:280-285 | the latest frame changes only to a decoded slice of the current read, or to nothing on disconnect |
| Receiver.SessionIsOneExtraction | Server/server2.py:266-281 | while the decoder raises on no slice, a run of reads on one connection (`Session`) equals one extraction over everything received, with the frame published in order |
| Receiver.AcceptIsolatesConnections | Server/server2.py:261-281 | after accept, and while the decoder raises on no slice, a connection's residue and frames depend only on its own bytes, never on what the previous connection left in the buffer |
| SingleReceiver.Next | Server/server.py:68-89 | an empty read or a failing `recv` closes the server and keeps the buffer and the frame; a non-empty read closes it exactly when the decoder raises on a slice of the extraction; the frame is the slices before the first raising one published in order; without a raise the buffer is the residue, and after one it still holds the slices after the raising one |
| SingleReceiver.ClosedIsFinal | Server/server.py:87-92 | once closed, further reads change nothing: only one connection is ever served |
| SingleReceiver.ServingIsOneExtraction | Server/server.py:68-86 | while serving and while the decoder raises on no slice, the state after the reads (`Run`) is one extraction over all bytes received since the single accept; the buffer is never reset |
| SingleReceiver.StopsAtFirstEnd | Server/server.py:68-92 | the reads performed (`Run`) stop at the first empty or failed read, which leaves the server closed with the buffer and frame it had then (or as a decoder throw left them earlier); no later read is performed |
| SingleReceiver.DecoderRaiseExample | Server/server.py:76-89 | on the read `FF D8 41 FF D9 FF D9 FF D8 42 FF D9`, with a decoder that raises on the empty slice, the server closes showing the first frame, and the second frame stays undecoded in the buffer |
| Viewer.RotateCamera | Server/server2.py:231-232 | a valid angle (0, 90, 180 or 270) stays valid and changes on every press; every result lies in 0..359 |
| Viewer.QuarterTurns | Server/server2.py:292-293 | for a valid angle the refresh applies `angle / 90` quarter-turns, at most 3 |
| Viewer.QuarterTurnsCount | Server/server2.py:231-232 | `n` presses (`RotateTimes`, `n` calls of `rotate_camera`) keep a valid angle valid and advance the quarter-turn count by `n`, modulo 4 |
| Viewer.FourRotationsRestore | Server/server2.py:232 | four presses restore any valid angle |
| Viewer.AngleAlwaysValid | Server/server2.py:232 | from the initial 0, after `n` presses (`RotateTimes(0, n)`) the angle is `90 * (n mod 4)` and so always valid |
| Viewer.ToggleRecording | Server/server.py:46-57 | every press flips the flag; starting leaves the new writer open, and stopping leaves no writer |
| Viewer.ToggleConsistent | Server/server.py:46-57 | after any press, the flag is set exactly when a writer is open |
| Viewer.ToggleTwiceRestores | Server/server.py:35-57 | start then stop returns a stopped recorder, with no writer open, to where it was; the start-up state (`InitialRecorder`: not recording, no writer) is one such and comes back after two presses |
| Viewer.UpdateFrame | Server/server2.py:288-307 | a frame is shown exactly when there is one, and it is always the latest frame turned `turns` times, whether or not it is written; it is written exactly when there is one, recording is on and a writer is open, and then to that writer as shown; the picture is cleared exactly when there is no frame and no live connection |
| Viewer.ShownAfterPresses | Server/server2.py:288-293 | after `n` presses of the rotate button from start-up, every refresh shows the latest frame turned clockwise `n mod 4` times, and writes it turned the same way when recording |
| Viewer.NoWriteAfterStop | Server/server.py:103-105 | after recording is stopped, no refresh writes |
| Viewer.WritesWhileRecording | Server/server.py:103-105 | after recording is started, every refresh with a frame writes it to the new writer |
| Sender.Forward | Client/client2.py:47-58 | the loop stops at the first empty read, failed send, interrupt or failing pipe read; every earlier read was sent in full; the bytes sent are those reads' chunks concatenated in order |
| Sender.StartStream | Client/client2.py:41-61 | if the capture has exited at spawn, nothing is sent and there is no cleanup; otherwise every exit from the loop, a raising pipe read included, terminates the process once and closes the socket once |
| Sender.SendsEverythingBeforeEmptyRead | Client/client2.py:48-51 | when every send succeeds, exactly the chunks before the first empty read are sent, in order, and then cleanup runs |
| Sender.NothingAfterFailedSend | Client/client2.py:52-56 | after the first failed send, nothing more is read or sent, and cleanup runs |
| Sender.FailedReadCleansUpAndRaises | Client/client2.py:47-61 | a failing pipe read ends the loop with the earlier chunks sent; the cleanup runs once and `start_stream` ends by raising |
| Reconnect.StripSpec | Client/client2.py:13 | `strip` (`Strip`, which is `StripLeft` then `StripRight`) leaves no whitespace at either end and removes only whitespace runs at the ends |
| Reconnect.StripPadded | Client/client2.py:13 | whitespace around text with non-blank ends is exactly what `strip` removes |
| Reconnect.StripIdempotent | Client/client2.py:13-16 | stripping twice is stripping once |
| Reconnect.GetServerAddress | Client/client2.py:9-28 | choice "1" returns the stripped address line, "2" returns the resolution of the stripped host line (`None` when the lookup raises `socket.gaierror`), and ends the client (`Uncaught`) when the lookup raises anything else; anything else typed returns `None` after one line; input ending early is reported |
| Reconnect.PaddedChoiceSelectsSame | Client/client2.py:13-17 | a choice typed with surrounding blanks selects the same option as the bare choice |
| Reconnect.DirectAddressIsTrimmed | Client/client2.py:15-16 | a direct address carries no leading or trailing whitespace |
| Reconnect.AwaitAddress | Client/client2.py:65-67 | the loop accepts only a non-empty address, so `None` and `""` are both asked again; it consumes at least one line; no address comes when the console runs out or a lookup raises past every handler |
| Reconnect.PromptsAreSuccessive | Client/client2.py:65-67 | the reference `Prompts` lists what `get_server_address` answers when it is called again and again, each call reading the lines after the previous answers, until the console runs out or a call raises past every handler |
| Reconnect.AwaitAddressTakesFirstAccepted | Client/client2.py:65-67 | the loop takes the first answer that is neither `None` nor empty, having read every line up to it, and finds none exactly when every answer before the console ran out was rejected |
| Reconnect.RoundsOfMain | Client/client2.py:63-78 | every round of `main`'s loop (`MainLoop`) dials the address the console supplied for that round, given by the reference `Choices` (each `while not server_ip` run on the lines after the previous choice), and that address is non-empty; the outcome is given by `Dial`; it sleeps `RECONNECT_DELAY` exactly when connecting or `start_stream` raises, and otherwise not; it records the `start_stream` run exactly when the connection was made; and a round follows another only once that round's stream finished |
| Reconnect.EveryAttemptIsMade | Client/client2.py:63-78 | the loop ends only when no address comes (the console runs out, or a lookup raises past every handler) or a stream is still running: `MainLoop` makes every connection attempt exactly when the console keeps supplying addresses and every stream but the last finishes |
| Reconnect.DirectAnswersSuffice | Client/client2.py:63-67 | answering "1" and a trimmed non-empty address `n` times supplies `n` addresses |

## Where the code and its description differ

The model follows the code in each case below.

- **The end marker is searched from the start of the buffer** (`Server/server2.py:274`, `Server/server.py:78`), not from the start marker. A stray `FF D9` before `FF D8` makes the code cut an empty slice, hand it to the decoder, and drop everything up to that `FF D9`.
  - `FrameDelimiter.StepSlice` and `DelimiterProperties.StrayEndMarkerExample` show this.
  - `DelimiterProperties.ReferenceFrames` is the described scan, which searches the end marker after the start marker. `NonEmptySlicesAreReferenceFrames` proves that the two agree once the empty slices are removed.
- **No maximum buffer size exists.** A stream that never sends an end marker grows the buffer without bound, and the model has no cap.
- **No delay follows a stream that ends normally.** In `main`, the reconnect delay follows only an exception that reaches the handler at `Client/client2.py:75-78`. That exception comes from connecting, or out of `start_stream`: a failed spawn, an interrupt before `start_stream`'s own handler is in place, or a failing pipe read after the cleanup. When `start_stream` returns, the next prompt comes at once.
- **The single-connection server keeps the latest frame after the connection ends.** Only `Server/server2.py` clears it (line 284).

## Left out

- The Tkinter window, status labels, buttons, clipboard helpers, icons and snapshots (`take_picture`): these are GUI.
- The Flask routes, the multipart HTTP re-broadcast and the module-level `latest_frame` copy: these are web plumbing. The module-level `rotation_angle` is never updated, and is left out with them.
- ngrok tunnelling and `get_local_ip`: these are external services.
- Pixel work (`cv2.rotate`, `cvtColor`, `imencode`, `VideoWriter` output): foreign libraries. A shown frame is the decoded frame paired with its number of quarter-turns.
- Threads, `master.after` scheduling and `time.sleep`: concurrency and timing only. The race between the server thread and the refresh on `latest_frame` is not modelled. The reconnect delay is recorded as a number of seconds, not waited.
- The `libcamera-vid` command line: the process is an oracle.
- The console, DNS, `connect`, `recv`, `accept` and `sendall`: these are oracles, described above.
  - Partial sends are not modelled: `sendall` either delivers everything or fails.
  - End of console input (`EOFError`) is `OutOfInput`, which ends the model's loop.
  - A lookup exception other than `socket.gaierror` is `Uncaught`. It ends the model's loop in the same way, since `main` calls `get_server_address` outside its `try`. Which host names raise it is up to the `resolve` oracle.
- Exception types: every exception from `recv` or `accept` is one event, and every exception from `cv2.imdecode` is the `raises` oracle.
- `Client/client.py`: a straight-line script whose read/send loop is a subset of `start_stream`.
- `Sender.StartStream`: when the capture process fails to start, `start_stream` returns without closing the socket. The model records this as zero cleanup calls and does not track the open socket further.
- `Reconnect.IsSpace`: it follows the characters Python's `str.isspace` accepts, and `strip` is modelled on strings as sequences of code points.
- Receiver.SessionIsOneExtraction: holds only for reads on which the decoder raises on no slice. A decoder throw ends the session early, and `Receiver.Next` states what it leaves.
- Receiver.AcceptIsolatesConnections: holds only while the decoder raises on no slice, for the same reason.
- SingleReceiver.ServingIsOneExtraction: holds only while the decoder raises on no slice. A decoder throw closes the server, and `SingleReceiver.Next` states what it leaves.

=== FILE: delimiter_properties.dfy ===
/**
 * What the extraction loop yields on whole streams: well-formed frames come
 * out intact whatever stray bytes separate them, and the non-empty slices are
 * exactly the frames a start-marker-then-next-end-marker scan would find.
 */
module DelimiterProperties {
  import opened Markers
  import opened FrameDelimiter
  import opened Seqs

  /** Stray bytes and frames, alternating: `gaps[0] + frames[0] + gaps[1] + frames[1] + ...`. */
  function Interleave(gaps: seq<seq<Byte>>, frames: seq<seq<Byte>>): seq<Byte>
    requires |gaps| == |frames|
    decreases |frames|
  {
    if |frames| == 0 then [] else gaps[0] + frames[0] + Interleave(gaps[1..], frames[1..])
  }

  /** A marker-free gap followed by a frame is cut as exactly that frame. */
  lemma GapFrameStep(g: seq<Byte>, f: seq<Byte>, r: seq<Byte>)
    requires MarkerFree(g) && FrameShaped(f)
    ensures HasBothMarkers(g + f + r)
    ensures Step(g + f + r) == Cut(f, r)
  {
    var buf := g + f + r;
    assert MarkerAt(buf, |g|, Soi);
    forall j | 0 <= j < |g|
      ensures !MarkerAt(buf, j, Soi)
    {
      if j + 1 < |g| {
        assert !MarkerAt(g, j, Soi);
      } else {
        assert buf[j + 1] == f[0];
      }
    }
    FindIsFirst(buf, Soi, |g|);
    var e := |g| + |f| - 2;
    assert MarkerAt(f, |f| - 2, Eoi);
    assert MarkerAt(buf, e, Eoi);
    forall j | 0 <= j < e
      ensures !MarkerAt(buf, j, Eoi)
    {
      if j + 1 < |g| {
        assert !MarkerAt(g, j, Eoi);
      } else if j + 1 == |g| {
        assert buf[j + 1] == f[0];
      } else {
        assert !MarkerAt(f, j - |g|, Eoi);
      }
    }
    FindIsFirst(buf, Eoi, e);
    assert buf[|g|..|g| + |f|] == f;
    assert buf[|g| + |f|..] == r;
  }

  /**
   * A stream of well-formed frames, each preceded by marker-free stray
   * bytes and followed by a tail the loop cannot cut, yields exactly those
   * frames in order and leaves exactly the tail.
   */
  lemma {:induction false} FramedStreamExtracts(gaps: seq<seq<Byte>>, frames: seq<seq<Byte>>, tail: seq<Byte>)
    requires |gaps| == |frames|
    requires forall k | 0 <= k < |frames| :: MarkerFree(gaps[k]) && FrameShaped(frames[k])
    requires !HasBothMarkers(tail)
    ensures Extract(Interleave(gaps, frames) + tail) == Extraction(frames, tail)
    decreases |frames|
  {
    if |frames| == 0 {
      assert Interleave(gaps, frames) + tail == tail;
    } else {
      var rest := Interleave(gaps[1..], frames[1..]) + tail;
      AppendAssoc(gaps[0] + frames[0], Interleave(gaps[1..], frames[1..]), tail);
      GapFrameStep(gaps[0], frames[0], rest);
      FramedStreamExtracts(gaps[1..], frames[1..], tail);
      HeadTail(frames);
    }
  }

  /** Interleaving with empty gaps is plain concatenation. */
  lemma {:induction false} InterleaveNoGaps(frames: seq<seq<Byte>>)
    ensures Interleave(seq(|frames|, _ => []), frames) == Flatten(frames)
    decreases |frames|
  {
    if |frames| > 0 {
      var gaps: seq<seq<Byte>> := seq(|frames|, _ => []);
      assert gaps[1..] == seq(|frames| - 1, _ => []);
      InterleaveNoGaps(frames[1..]);
      assert gaps[0] + frames[0] == frames[0];
    }
  }

  /** Back-to-back well-formed frames come out exactly, in order, with nothing left over. */
  lemma ConcatenatedFramesExtract(frames: seq<seq<Byte>>)
    requires forall k | 0 <= k < |frames| :: FrameShaped(frames[k])
    ensures Extract(Flatten(frames)) == Extraction(frames, [])
  {
    var gaps: seq<seq<Byte>> := seq(|frames|, _ => []);
    forall k | 0 <= k < |frames|
      ensures MarkerFree(gaps[k])
    {
    }
    FramedStreamExtracts(gaps, frames, []);
    InterleaveNoGaps(frames);
    assert Flatten(frames) + [] == Flatten(frames);
  }

  /** One cut of the reference scan: a frame and the bytes after it, or nothing. */
  datatype Found = NoFrame | Found(frame: seq<Byte>, rest: seq<Byte>)

  /**
   * Reference cut: find the first start marker, then the first end marker
   * after it; that range is the frame.
   */
  function ReferenceCut(buf: seq<Byte>): (c: Found)
    ensures c.Found? ==> |c.rest| < |buf|
  {
    if !Contains(buf, Soi) then NoFrame else FrameAtStart(buf[Find(buf, Soi)..])
  }

  /** The reference cut of bytes that begin at a start marker. */
  function FrameAtStart(u: seq<Byte>): (c: Found)
    ensures c.Found? ==> |c.frame| >= 4 && c.frame + c.rest == u
  {
    var e := FindFrom(u, Eoi, 2);
    if e == -1 then NoFrame else Found(u[..e + 2], u[e + 2..])
  }

  /** Reference scan: cut frames one after another until no complete frame is left. */
  function ReferenceFrames(buf: seq<Byte>): seq<seq<Byte>>
    decreases |buf|
  {
    match ReferenceCut(buf)
    case NoFrame => []
    case Found(f, rest) => [f] + ReferenceFrames(rest)
  }

  /** The slices that are not empty, in order. */
  function NonEmpty(slices: seq<seq<Byte>>): seq<seq<Byte>>
    decreases |slices|
  {
    if |slices| == 0 then []
    else if slices[0] == [] then NonEmpty(slices[1..])
    else [slices[0]] + NonEmpty(slices[1..])
  }

  /** Searching a suffix finds the same marker, shifted. */
  lemma FindFromSuffix(buf: seq<Byte>, k: nat, from: nat, code: Byte)
    requires k <= |buf|
    ensures var r := FindFrom(buf, code, from + k);
            FindFrom(buf[k..], code, from) == if r == -1 then -1 else r - k
  {
    var t := buf[k..];
    var r := FindFrom(buf, code, from + k);
    var q := FindFrom(t, code, from);
    if q != -1 {
      MarkerAtSuffix(buf, k, q, code);
      assert MarkerAt(buf, q + k, code);
    }
    if r != -1 {
      MarkerAtSuffix(buf, k, r - k, code);
      assert MarkerAt(t, r - k, code);
    }
  }

  /** Dropping bytes before the first start marker keeps that marker first. */
  lemma DropKeepsFirstStart(buf: seq<Byte>, k: nat)
    requires Contains(buf, Soi)
    requires k <= Find(buf, Soi)
    ensures Contains(buf[k..], Soi) && Find(buf[k..], Soi) == Find(buf, Soi) - k
  {
    var t := buf[k..];
    var s := Find(buf, Soi);
    MarkerAtSuffix(buf, k, s - k, Soi);
    forall j | 0 <= j < s - k
      ensures !MarkerAt(t, j, Soi)
    {
      MarkerAtSuffix(buf, k, j, Soi);
    }
    FindIsFirst(t, Soi, s - k);
  }

  /** Dropping bytes that hold no start marker does not change the reference cut. */
  lemma DropBeforeStartCut(buf: seq<Byte>, k: nat)
    requires Contains(buf, Soi)
    requires k <= Find(buf, Soi)
    ensures ReferenceCut(buf[k..]) == ReferenceCut(buf)
  {
    var s := Find(buf, Soi);
    DropKeepsFirstStart(buf, k);
    SliceOfSuffix(buf, k, s, s);
  }

  /** ... and so does not change the reference scan. */
  lemma DropBeforeStart(buf: seq<Byte>, k: nat)
    requires Contains(buf, Soi)
    requires k <= Find(buf, Soi)
    ensures ReferenceFrames(buf[k..]) == ReferenceFrames(buf)
  {
    DropBeforeStartCut(buf, k);
  }

  /**
   * The code searches the end marker from the start of the buffer, not from
   * the start marker, so it may cut empty slices; apart from those it cuts
   * exactly the frames of the reference scan.
   */
  lemma {:induction false} NonEmptySlicesAreReferenceFrames(buf: seq<Byte>)
    ensures NonEmpty(Extract(buf).slices) == ReferenceFrames(buf)
    decreases |buf|
  {
    if !HasBothMarkers(buf) {
      NoCutCase(buf);
    } else {
      var c := Step(buf);
      NonEmptySlicesAreReferenceFrames(c.rest);
      NonEmptyCons(c.jpg, Extract(c.rest).slices);
      if Find(buf, Eoi) < Find(buf, Soi) {
        EmptySliceCase(buf);
      } else {
        FrameSliceCase(buf);
      }
    }
  }

  /** Where the loop stops, the reference scan finds no frame either. */
  lemma NoCutCase(buf: seq<Byte>)
    requires !HasBothMarkers(buf)
    ensures ReferenceCut(buf) == NoFrame
  {
    if Contains(buf, Soi) {
      var s := Find(buf, Soi);
      var e := FindFrom(buf[s..], Eoi, 2);
      if e != -1 {
        MarkerAtSuffix(buf, s, e, Eoi);
        assert false;
      }
    }
  }

  /** A stray end marker first: the cut is empty and the reference scan is unaffected. */
  lemma EmptySliceCase(buf: seq<Byte>)
    requires HasBothMarkers(buf)
    requires Find(buf, Eoi) < Find(buf, Soi)
    ensures Step(buf).jpg == []
    ensures ReferenceFrames(Step(buf).rest) == ReferenceFrames(buf)
  {
    var e0 := Find(buf, Eoi);
    MarkersApart(buf, Find(buf, Soi), e0);
    StepSlice(buf);
    StepKeepsSuffixAfterFirstEoi(buf);
    assert Step(buf).rest == buf[e0 + 2..];
    DropBeforeStart(buf, e0 + 2);
  }

  /** A start marker first: the cut is the reference scan's frame. */
  lemma FrameSliceCase(buf: seq<Byte>)
    requires HasBothMarkers(buf)
    requires Find(buf, Soi) < Find(buf, Eoi)
    ensures Step(buf).jpg != []
    ensures ReferenceCut(buf) == Found(Step(buf).jpg, Step(buf).rest)
  {
    var s := Find(buf, Soi);
    var e0 := Find(buf, Eoi);
    MarkersApart(buf, s, e0);
    StepSlice(buf);
    assert FindFrom(buf, Eoi, s + 2) == e0;
    ReferenceCutFound(buf, e0);
  }

  /** The reference cut, when an end marker follows the first start marker. */
  lemma ReferenceCutFound(buf: seq<Byte>, e: int)
    requires Contains(buf, Soi)
    requires e != -1 && FindFrom(buf, Eoi, Find(buf, Soi) + 2) == e
    ensures ReferenceCut(buf) == Found(buf[Find(buf, Soi)..e + 2], buf[e + 2..])
  {
    var s := Find(buf, Soi);
    var u := buf[s..];
    FindFromSuffix(buf, s, 2, Eoi);
    assert u[..e - s + 2] == buf[s..e + 2];
    assert u[e - s + 2..] == buf[e + 2..];
  }

  lemma NonEmptyCons(x: seq<Byte>, xs: seq<seq<Byte>>)
    ensures NonEmpty([x] + xs) == if x == [] then NonEmpty(xs) else [x] + NonEmpty(xs)
  {
    TailOfCons(x, xs);
  }

  /** Concatenating two chunks. */
  lemma FlattenPair(x: seq<Byte>, y: seq<Byte>)
    ensures Flatten([x, y]) == x + y
  {
    assert [x, y][1..] == [y];
    assert [y][1..] == [];
    assert Flatten([y]) == y + Flatten([]);
  }

  /** The bytes of the two chunks are the bytes of the two frames. */
  lemma ExampleBytes(a: seq<Byte>, b: seq<Byte>, f1: seq<Byte>, f2: seq<Byte>)
    requires a == [0xFF, 0xD8, 0x41] && b == [0xFF, 0xD9, 0xFF, 0xD8, 0x42, 0xFF, 0xD9]
    requires f1 == [0xFF, 0xD8, 0x41, 0xFF, 0xD9] && f2 == [0xFF, 0xD8, 0x42, 0xFF, 0xD9]
    ensures a + b == f1 + f2
  {
  }

  /** Both chunks of the two-frame example: nothing after the first, both frames after the second. */
  lemma TwoChunkExample()
    ensures var a: seq<Byte> := [0xFF, 0xD8, 0x41];
            var b: seq<Byte> := [0xFF, 0xD9, 0xFF, 0xD8, 0x42, 0xFF, 0xD9];
            && Extract(a) == Extraction([], a)
            && FeedAll([], [a, b]) == Extraction([[0xFF, 0xD8, 0x41, 0xFF, 0xD9], [0xFF, 0xD8, 0x42, 0xFF, 0xD9]], [])
  {
    var a: seq<Byte> := [0xFF, 0xD8, 0x41];
    var b: seq<Byte> := [0xFF, 0xD9, 0xFF, 0xD8, 0x42, 0xFF, 0xD9];
    var f1: seq<Byte> := [0xFF, 0xD8, 0x41, 0xFF, 0xD9];
    var f2: seq<Byte> := [0xFF, 0xD8, 0x42, 0xFF, 0xD9];
    assert !Contains(a, Eoi) by {
      assert !MarkerAt(a, 0, Eoi) && !MarkerAt(a, 1, Eoi);
    }
    assert FrameShaped(f1) by {
      assert !MarkerAt(f1, 1, Eoi) && !MarkerAt(f1, 2, Eoi);
    }
    assert FrameShaped(f2) by {
      assert !MarkerAt(f2, 1, Eoi) && !MarkerAt(f2, 2, Eoi);
    }
    assert Extract(a + b) == Extraction([f1, f2], []) by {
      ConcatenatedFramesExtract([f1, f2]);
      FlattenPair(f1, f2);
      ExampleBytes(a, b, f1, f2);
    }
    assert FeedAll([], [a, b]) == Extract(a + b) by {
      FlattenPair(a, b);
      EmptyAppend(a + b);
      ChunkBoundariesIrrelevant([], [a, b]);
    }
  }

  /**
   * A stray end marker in front of a frame: the code cuts an empty slice and
   * hands it to the decoder, then (when decoding the empty slice does not
   * raise) cuts the frame, where the reference scan finds the frame alone.
   */
  lemma StrayEndMarkerExample()
    ensures var buf: seq<Byte> := [0xFF, 0xD9, 0xFF, 0xD8, 0x41, 0xFF, 0xD9];
            && Extract(buf) == Extraction([[], buf[2..]], [])
            && ReferenceFrames(buf) == [buf[2..]]
  {
    var buf: seq<Byte> := [0xFF, 0xD9, 0xFF, 0xD8, 0x41, 0xFF, 0xD9];
    var f := buf[2..];
    assert MarkerAt(buf, 0, Eoi);
    assert MarkerAt(buf, 2, Soi) && !MarkerAt(buf, 0, Soi) && !MarkerAt(buf, 1, Soi);
    FindIsFirst(buf, Soi, 2);
    FindIsFirst(buf, Eoi, 0);
    assert FrameShaped(f) by {
      assert !MarkerAt(f, 1, Eoi) && !MarkerAt(f, 2, Eoi);
    }
    assert Step(buf) == Cut([], f);
    ConcatenatedFramesExtract([f]);
    assert Flatten([f]) == f + Flatten([]);
    EmptyAppend(f);
    assert Extract(f) == Extraction([f], []);
    assert Extract(buf) == Extraction([[]] + Extract(f).slices, Extract(f).residue);
    PairOfSingletons([], f);
    var slices: seq<seq<Byte>> := [[], f];
    assert Extract(buf).slices == slices;
    assert slices[1..] == [f];
    assert [f][1..] == [];
    assert NonEmpty([f]) == [f] + NonEmpty([]);
    EmptyAppend([f]);
    assert NonEmpty(slices) == [f];
    NonEmptySlicesAreReferenceFrames(buf);
  }

}

=== FILE: frame_delimiter.dfy ===
/**
 * The receiver's frame extraction loop: while the accumulation buffer holds
 * both a start-of-image and an end-of-image marker, cut out
 * `buffer[start:end]` with `start` the first start marker and `end` two
 * past the first end marker (searched from the beginning of the buffer, not
 * from `start`), and keep `buffer[end:]` for later.
 */
module FrameDelimiter {
  import opened Optional
  import opened Markers
  import opened FrameSlot
  import opened Seqs

  /** The loop guard: both markers occur somewhere in the buffer. */
  predicate HasBothMarkers(buf: seq<Byte>) {
    Contains(buf, Soi) && Contains(buf, Eoi)
  }

  /** Python's `buf[i:j]` for indices inside the buffer: empty when `i >= j`. */
  function Slice(buf: seq<Byte>, i: nat, j: nat): seq<Byte>
    requires j <= |buf|
  {
    if i < j then buf[i..j] else []
  }

  /**
   * A complete JPEG as the receiver sees it: a start marker at its head and
   * its first end marker at its tail.
   */
  predicate FrameShaped(f: seq<Byte>) {
    && |f| >= 4
    && MarkerAt(f, 0, Soi)
    && MarkerAt(f, |f| - 2, Eoi)
    && forall j | 0 <= j < |f| - 2 :: !MarkerAt(f, j, Eoi)
  }

  /** What one iteration can hand to the decoder: nothing, or a frame. */
  predicate Cuttable(s: seq<Byte>) {
    s == [] || FrameShaped(s)
  }

  lemma CuttableCons(x: seq<Byte>, xs: seq<seq<Byte>>)
    requires Cuttable(x)
    requires forall k | 0 <= k < |xs| :: Cuttable(xs[k])
    ensures forall k | 0 <= k < |xs| + 1 :: Cuttable(([x] + xs)[k])
  {
    forall k | 0 <= k < |xs| + 1
      ensures Cuttable(([x] + xs)[k])
    {
      if k > 0 {
        assert ([x] + xs)[k] == xs[k - 1];
      }
    }
  }

  /** No marker of either kind: stray bytes between frames. */
  predicate MarkerFree(g: seq<Byte>) {
    !Contains(g, Soi) && !Contains(g, Eoi)
  }

  /** `r` is the tail end of `s`. */
  predicate SuffixOf(r: seq<Byte>, s: seq<Byte>) {
    |r| <= |s| && forall i | 0 <= i < |r| :: r[i] == s[|s| - |r| + i]
  }

  /** One iteration's slice (`jpg`) and the buffer left after it (`rest`). */
  datatype Cut = Cut(jpg: seq<Byte>, rest: seq<Byte>)

  /** One iteration of the extraction loop. */
  function Step(buf: seq<Byte>): (c: Cut)
    requires HasBothMarkers(buf)
    // progress: at least the two bytes of the end marker are consumed
    ensures |c.rest| + 2 <= |buf|
    ensures SuffixOf(c.rest, buf)
    ensures Cuttable(c.jpg)
  {
    var start := Find(buf, Soi);
    var end := Find(buf, Eoi) + 2;
    SliceShape(buf);
    Cut(Slice(buf, start, end), buf[end..])
  }

  /** What one step keeps: exactly the bytes after the first end marker. */
  lemma StepKeepsSuffixAfterFirstEoi(buf: seq<Byte>)
    requires HasBothMarkers(buf)
    ensures var k := |buf| - |Step(buf).rest|;
            && k >= 2
            && MarkerAt(buf, k - 2, Eoi)
            && (forall j | 0 <= j < k - 2 :: !MarkerAt(buf, j, Eoi))
            && Step(buf).rest == buf[k..]
  {
  }

  /**
   * What one step hands to the decoder: nothing when the first end marker
   * precedes the first start marker; otherwise a frame that ends where the
   * consumed prefix ends, the bytes discarded in front of it holding no start
   * marker.
   */
  lemma StepSlice(buf: seq<Byte>)
    requires HasBothMarkers(buf)
    ensures Step(buf).jpg == [] <==> Find(buf, Eoi) < Find(buf, Soi)
    ensures var c := Step(buf);
            var k := |buf| - |c.rest|;
            c.jpg != [] ==>
              && FrameShaped(c.jpg)
              && |c.jpg| <= k
              && c.jpg == buf[k - |c.jpg|..k]
              && forall j | 0 <= j < k - |c.jpg| :: !MarkerAt(buf, j, Soi)
  {
    MarkersApart(buf, Find(buf, Soi), Find(buf, Eoi));
  }

  /** When the first start marker comes first, the slice up to the first end marker is a frame. */
  lemma SliceShape(buf: seq<Byte>)
    requires HasBothMarkers(buf)
    ensures Find(buf, Soi) < Find(buf, Eoi) ==> FrameShaped(buf[Find(buf, Soi)..Find(buf, Eoi) + 2])
  {
    var start := Find(buf, Soi);
    var end := Find(buf, Eoi) + 2;
    if start < end - 2 {
      MarkersApart(buf, start, end - 2);
      var jpg := buf[start..end];
      assert MarkerAt(jpg, 0, Soi);
      assert MarkerAt(jpg, |jpg| - 2, Eoi);
      forall j | 0 <= j < |jpg| - 2
        ensures !MarkerAt(jpg, j, Eoi)
      {
        assert !MarkerAt(buf, start + j, Eoi);
      }
    }
  }

  /** All slices handed to the decoder and the buffer left when the loop exits. */
  datatype Extraction = Extraction(slices: seq<seq<Byte>>, residue: seq<Byte>)

  /** The whole inner `while` loop, run on one buffer. */
  function Extract(buf: seq<Byte>): (e: Extraction)
    // the loop exits only when one of the markers is missing
    ensures !HasBothMarkers(e.residue)
    // every iteration consumes at least two bytes
    ensures |e.residue| + 2 * |e.slices| <= |buf|
    ensures SuffixOf(e.residue, buf)
    ensures forall k | 0 <= k < |e.slices| :: Cuttable(e.slices[k])
    decreases |buf|
  {
    if HasBothMarkers(buf) then
      var c := Step(buf);
      var e := Extract(c.rest);
      CuttableCons(c.jpg, e.slices);
      Extraction([c.jpg] + e.slices, e.residue)
    else
      Extraction([], buf)
  }

  /** No slice makes the decoder raise. */
  predicate NoneRaises(slices: seq<seq<Byte>>, raises: seq<Byte> -> bool) {
    forall k | 0 <= k < |slices| :: !raises(slices[k])
  }

  /** Raising on none of the slices of `a + b` is raising on none of either part. */
  lemma NoneRaisesAppend(a: seq<seq<Byte>>, b: seq<seq<Byte>>, raises: seq<Byte> -> bool)
    requires NoneRaises(a + b, raises)
    ensures NoneRaises(a, raises) && NoneRaises(b, raises)
  {
    assert forall k | 0 <= k < |a| :: a[k] == (a + b)[k];
    assert forall k | 0 <= k < |b| :: b[k] == (a + b)[|a| + k];
  }

  /** The position of the first slice the decoder raises on, or `|slices|` when there is none. */
  function FirstRaising(slices: seq<seq<Byte>>, raises: seq<Byte> -> bool): (k: nat)
    ensures k <= |slices|
    ensures forall j | 0 <= j < k :: !raises(slices[j])
    ensures k < |slices| ==> raises(slices[k])
    decreases |slices|
  {
    if |slices| == 0 then 0
    else if raises(slices[0]) then 0
    else
      var k := 1 + FirstRaising(slices[1..], raises);
      assert forall j | 1 <= j < k :: slices[j] == slices[1..][j - 1];
      k
  }

  /** The buffer and frame the loop leaves, and whether the decoder raised out of it. */
  datatype Drained<F> = Drained(buffer: seq<Byte>, latest: Option<F>, raised: bool)

  /**
   * The extraction loop with decoding, as both servers run it. `decode` is
   * what the image decoder returns for a slice (`None` when it cannot decode
   * it) and `raises` says whether it throws instead. A throw leaves the loop
   * at once: the buffer has already been cut past that slice and the frames
   * decoded before it have been published.
   */
  function Drain<F>(buf: seq<Byte>, latest: Option<F>, decode: seq<Byte> -> Option<F>, raises: seq<Byte> -> bool): (d: Drained<F>)
    decreases |buf|
  {
    if !HasBothMarkers(buf) then Drained(buf, latest, false)
    else
      var c := Step(buf);
      if raises(c.jpg) then Drained(c.rest, latest, true)
      else Drain(c.rest, Overwrite(latest, decode(c.jpg)), decode, raises)
  }

  /**
   * In terms of the slices of `Extract`: the loop raises exactly when some
   * slice makes the decoder raise; the frame is the batch published up to
   * the first such slice; without a throw the buffer is the residue, and
   * after one it still holds exactly the slices after the failing one.
   */
  ghost predicate DrainMatchesExtract<F>(buf: seq<Byte>, latest: Option<F>, decode: seq<Byte> -> Option<F>, raises: seq<Byte> -> bool) {
    var e := Extract(buf);
    var k := FirstRaising(e.slices, raises);
    var d := Drain(buf, latest, decode, raises);
    && (d.raised <==> k < |e.slices|)
    && d.latest == Publish(latest, e.slices[..k], decode)
    && (!d.raised ==> d.buffer == e.residue)
    && (d.raised ==> Extract(d.buffer) == Extraction(e.slices[k + 1..], e.residue))
  }

  /** The loop with decoding, described by the slices of `Extract`, for every buffer and decoder. */
  lemma {:induction false} DrainSpec<F>(buf: seq<Byte>, latest: Option<F>, decode: seq<Byte> -> Option<F>, raises: seq<Byte> -> bool)
    ensures DrainMatchesExtract(buf, latest, decode, raises)
    decreases |buf|
  {
    if !HasBothMarkers(buf) {
      assert Extract(buf).slices[..0] == [];
    } else {
      var c := Step(buf);
      if raises(c.jpg) {
        DrainRaisesAtFirst(buf, latest, decode, raises);
      } else {
        DrainSpec(c.rest, Overwrite(latest, decode(c.jpg)), decode, raises);
        DrainPastFirst(buf, latest, decode, raises);
      }
    }
  }

  /** A raise on the first slice leaves the loop with nothing published and the rest of the buffer uncut. */
  lemma DrainRaisesAtFirst<F>(buf: seq<Byte>, latest: Option<F>, decode: seq<Byte> -> Option<F>, raises: seq<Byte> -> bool)
    requires HasBothMarkers(buf) && raises(Step(buf).jpg)
    ensures DrainMatchesExtract(buf, latest, decode, raises)
  {
    var e := Extract(buf);
    assert e.slices == [Step(buf).jpg] + Extract(Step(buf).rest).slices;
    assert e.slices[1..] == Extract(Step(buf).rest).slices;
    assert e.slices[..0] == [];
  }

  /** Past a first slice that does not raise, the loop goes on as it does on the rest of the buffer. */
  lemma DrainPastFirst<F>(buf: seq<Byte>, latest: Option<F>, decode: seq<Byte> -> Option<F>, raises: seq<Byte> -> bool)
    requires HasBothMarkers(buf) && !raises(Step(buf).jpg)
    requires DrainMatchesExtract(Step(buf).rest, Overwrite(latest, decode(Step(buf).jpg)), decode, raises)
    ensures DrainMatchesExtract(buf, latest, decode, raises)
  {
    var c := Step(buf);
    var er := Extract(c.rest);
    assert Extract(buf).slices == [c.jpg] + er.slices;
    DrainPastSlice(c.jpg, er.slices, latest, decode, raises);
  }

  /** Past a slice that does not raise, the first raising slice and the published prefix shift by one. */
  lemma DrainPastSlice<F>(x: seq<Byte>, xs: seq<seq<Byte>>, latest: Option<F>, decode: seq<Byte> -> Option<F>, raises: seq<Byte> -> bool)
    requires !raises(x)
    ensures var k := FirstRaising(xs, raises);
            && FirstRaising([x] + xs, raises) == k + 1
            && Publish(latest, ([x] + xs)[..k + 1], decode) == Publish(Overwrite(latest, decode(x)), xs[..k], decode)
            && (k < |xs| ==> ([x] + xs)[k + 2..] == xs[k + 1..])
  {
    var ys := [x] + xs;
    var k := FirstRaising(xs, raises);
    assert ys[1..] == xs;
    assert ys[..k + 1][1..] == xs[..k];
  }

  /** When no slice makes the decoder raise, the loop is the extraction with its slices published in order. */
  lemma DrainWithoutRaise<F>(buf: seq<Byte>, latest: Option<F>, decode: seq<Byte> -> Option<F>, raises: seq<Byte> -> bool)
    requires NoneRaises(Extract(buf).slices, raises)
    ensures Drain(buf, latest, decode, raises)
              == Drained(Extract(buf).residue, Publish(latest, Extract(buf).slices, decode), false)
  {
    var e := Extract(buf);
    DrainSpec(buf, latest, decode, raises);
    assert e.slices[..|e.slices|] == e.slices;
  }

  /**
   * The loop as the receiver runs it, in place: decode each slice as it is
   * cut, keep the most recent successful decode, and stop when the decoder
   * raises.
   */
  method ExtractFrames<F>(buffer: seq<Byte>, latest: Option<F>, decode: seq<Byte> -> Option<F>, raises: seq<Byte> -> bool)
    returns (buf: seq<Byte>, last: Option<F>, raised: bool)
    ensures Drained(buf, last, raised) == Drain(buffer, latest, decode, raises)
    ensures raised <==> !NoneRaises(Extract(buffer).slices, raises)
    ensures !raised ==> buf == Extract(buffer).residue
    ensures !raised ==> last == Overwrite(latest, LastDecoded(Extract(buffer).slices, decode))
  {
    buf := buffer;
    last := latest;
    raised := false;
    while Contains(buf, Soi) && Contains(buf, Eoi)
      invariant Drain(buf, last, decode, raises) == Drain(buffer, latest, decode, raises)
      decreases |buf|
    {
      var start := Find(buf, Soi);
      var end := Find(buf, Eoi) + 2;
      var jpg := Slice(buf, start, end);
      buf := buf[end..];
      if raises(jpg) {
        raised := true;
        break;
      }
      var frame := decode(jpg);
      if frame.Some? {
        last := frame;
      }
    }
    DrainSpec(buffer, latest, decode, raises);
    var e := Extract(buffer);
    if !raised {
      assert e.slices[..|e.slices|] == e.slices;
      PublishKeepsLastDecoded(latest, e.slices, decode);
    }
  }

  /** A buffer with a start marker but no end marker yet (or no marker at all) is left as it is. */
  lemma PartialFrameRetained(buf: seq<Byte>)
    requires !Contains(buf, Eoi) || !Contains(buf, Soi)
    ensures Extract(buf) == Extraction([], buf)
  {
  }

  /** A step on a longer buffer cuts the same slice and keeps the extra bytes. */
  lemma StepAppend(a: seq<Byte>, b: seq<Byte>)
    requires HasBothMarkers(a)
    ensures HasBothMarkers(a + b)
    ensures Step(a + b) == Cut(Step(a).jpg, Step(a).rest + b)
  {
    FindInPrefix(a, b, Soi);
    FindInPrefix(a, b, Eoi);
    var end := Find(a, Eoi) + 2;
    assert (a + b)[end..] == a[end..] + b;
    var start := Find(a, Soi);
    if start < end {
      assert (a + b)[start..end] == a[start..end];
    }
  }

  /**
   * Chunk independence: extracting from `a + b` cuts the slices of `a`, then
   * the slices of what `a` left behind followed by `b`.
   */
  lemma {:induction false} ExtractAppend(a: seq<Byte>, b: seq<Byte>)
    ensures var ea := Extract(a);
            var eb := Extract(ea.residue + b);
            Extract(a + b) == Extraction(ea.slices + eb.slices, eb.residue)
    decreases |a|
  {
    if HasBothMarkers(a) {
      StepAppend(a, b);
      var c := Step(a);
      ExtractAppend(c.rest, b);
      var er := Extract(c.rest);
      var x := Extract(er.residue + b);
      assert Extract(c.rest + b) == Extraction(er.slices + x.slices, x.residue);
      assert Extract(a) == Extraction([c.jpg] + er.slices, er.residue);
      assert Extract(a + b) == Extraction([c.jpg] + Extract(c.rest + b).slices, Extract(c.rest + b).residue);
      AppendAssoc([c.jpg], er.slices, x.slices);
    } else {
      assert Extract(a) == Extraction([], a);
      EmptyAppend(Extract(a + b).slices);
    }
  }

  /** Append each chunk to the buffer and run the loop, as one read after another does. */
  function FeedAll(buf: seq<Byte>, chunks: seq<seq<Byte>>): (e: Extraction)
    decreases |chunks|
  {
    if |chunks| == 0 then Extraction([], buf)
    else
      var first := Extract(buf + chunks[0]);
      var more := FeedAll(first.residue, chunks[1..]);
      Extraction(first.slices + more.slices, more.residue)
  }

  /**
   * However the stream is split into reads, the same slices and residue come
   * out, starting from any buffer the loop has already exhausted.
   */
  lemma {:induction false} ChunkBoundariesIrrelevant(buf: seq<Byte>, chunks: seq<seq<Byte>>)
    requires !HasBothMarkers(buf)
    ensures FeedAll(buf, chunks) == Extract(buf + Flatten(chunks))
    decreases |chunks|
  {
    if |chunks| == 0 {
      assert buf + Flatten(chunks) == buf;
    } else {
      var first := Extract(buf + chunks[0]);
      var more := FeedAll(first.residue, chunks[1..]);
      ChunkBoundariesIrrelevant(first.residue, chunks[1..]);
      ExtractAppend(buf + chunks[0], Flatten(chunks[1..]));
      AppendAssoc(buf, chunks[0], Flatten(chunks[1..]));
      assert FeedAll(buf, chunks) == Extraction(first.slices + more.slices, more.residue);
    }
  }

}

=== FILE: frame_slot.dfy ===
/**
 * The single "latest frame" slot the receiver publishes into. Each extracted
 * slice is handed to the image decoder (an oracle `decode`); a successful
 * decode overwrites the slot, a failed one leaves it alone.
 */
module FrameSlot {
  import opened Optional
  import opened Markers

  /** One `if frame is not None: latest_frame = frame`. */
  function Overwrite<F>(slot: Option<F>, decoded: Option<F>): Option<F> {
    if decoded.Some? then decoded else slot
  }

  /** `r` is what the decoder made of one of the slices. */
  ghost predicate DecodedFrom<F>(r: Option<F>, slices: seq<seq<Byte>>, decode: seq<Byte> -> Option<F>) {
    exists k | 0 <= k < |slices| :: decode(slices[k]) == r
  }

  /** The slot after decoding the slices in stream order. */
  function Publish<F>(slot: Option<F>, slices: seq<seq<Byte>>, decode: seq<Byte> -> Option<F>): (r: Option<F>)
    ensures r == slot || DecodedFrom(r, slices, decode)
    ensures (forall k | 0 <= k < |slices| :: decode(slices[k]).None?) ==> r == slot
    decreases |slices|
  {
    if |slices| == 0 then slot
    else
      var r := Publish(Overwrite(slot, decode(slices[0])), slices[1..], decode);
      assert forall k | 0 <= k < |slices| - 1 :: slices[1..][k] == slices[k + 1];
      r
  }

  /** Reference definition: the decode of the last slice that decodes, if any. */
  function LastDecoded<F>(slices: seq<seq<Byte>>, decode: seq<Byte> -> Option<F>): (r: Option<F>)
    ensures r.None? <==> forall k | 0 <= k < |slices| :: decode(slices[k]).None?
    ensures r.Some? ==> DecodedFrom(r, slices, decode)
    decreases |slices|
  {
    if |slices| == 0 then None
    else if decode(slices[|slices| - 1]).Some? then decode(slices[|slices| - 1])
    else LastDecoded(slices[..|slices| - 1], decode)
  }

  /** Publishing one more slice is one more overwrite. */
  lemma {:induction false} PublishSnoc<F>(slot: Option<F>, slices: seq<seq<Byte>>, last: seq<Byte>, decode: seq<Byte> -> Option<F>)
    ensures Publish(slot, slices + [last], decode) == Overwrite(Publish(slot, slices, decode), decode(last))
    decreases |slices|
  {
    if |slices| == 0 {
      assert slices + [last] == [last];
    } else {
      assert (slices + [last])[1..] == slices[1..] + [last];
      PublishSnoc(Overwrite(slot, decode(slices[0])), slices[1..], last, decode);
    }
  }

  /** Publishing two batches one after the other is publishing their concatenation. */
  lemma {:induction false} PublishAppend<F>(slot: Option<F>, a: seq<seq<Byte>>, b: seq<seq<Byte>>, decode: seq<Byte> -> Option<F>)
    ensures Publish(slot, a + b, decode) == Publish(Publish(slot, a, decode), b, decode)
    decreases |a|
  {
    if |a| == 0 {
      assert a + b == b;
    } else {
      assert (a + b)[1..] == a[1..] + b;
      PublishAppend(Overwrite(slot, decode(a[0])), a[1..], b, decode);
    }
  }

  /**
   * After a batch the slot holds the last slice that decoded, in stream
   * order; when none decoded it keeps its previous content.
   */
  lemma {:induction false} PublishKeepsLastDecoded<F>(slot: Option<F>, slices: seq<seq<Byte>>, decode: seq<Byte> -> Option<F>)
    ensures Publish(slot, slices, decode) == Overwrite(slot, LastDecoded(slices, decode))
    decreases |slices|
  {
    if |slices| > 0 {
      var init := slices[..|slices| - 1];
      var last := slices[|slices| - 1];
      assert slices == init + [last];
      PublishSnoc(slot, init, last, decode);
      PublishKeepsLastDecoded(slot, init, decode);
    }
  }

  /** Two frames published with no read in between: only the second is visible. */
  lemma OverwriteNotQueue<F>(slot: Option<F>, s1: seq<Byte>, s2: seq<Byte>, decode: seq<Byte> -> Option<F>)
    requires decode(s1).Some? && decode(s2).Some?
    ensures Publish(slot, [s1, s2], decode) == decode(s2)
  {
    PublishKeepsLastDecoded(slot, [s1, s2], decode);
  }

}

=== FILE: markers.dfy ===
/**
 * Bytes and the two JPEG markers the receiver looks for: start of image
 * (`FF D8`) and end of image (`FF D9`), as listed in table B.1 of
 * ITU-T Recommendation T.81. A marker is the byte 0xFF followed by a code.
 */
module Markers {

  type Byte = bv8

  const MarkerPrefix: Byte := 0xFF
  /** Code of the start-of-image marker. */
  const Soi: Byte := 0xD8
  /** Code of the end-of-image marker. */
  const Eoi: Byte := 0xD9

  /** The marker with the given code occupies positions `i` and `i + 1` of `s`. */
  predicate MarkerAt(s: seq<Byte>, i: int, code: Byte) {
    0 <= i && i + 1 < |s| && s[i] == MarkerPrefix && s[i + 1] == code
  }

  /** Python's `bytes([0xFF, code]) in s`. */
  predicate Contains(s: seq<Byte>, code: Byte) {
    exists i | 0 <= i < |s| :: MarkerAt(s, i, code)
  }

  /** Search for the marker from position `from` onwards; -1 when there is none. */
  function FindFrom(s: seq<Byte>, code: Byte, from: nat): (r: int)
    ensures r == -1 || (from <= r && MarkerAt(s, r, code))
    ensures r == -1 ==> forall j :: from <= j ==> !MarkerAt(s, j, code)
    ensures r != -1 ==> forall j :: from <= j < r ==> !MarkerAt(s, j, code)
    decreases |s| - from
  {
    if from + 1 >= |s| then -1
    else if MarkerAt(s, from, code) then from
    else FindFrom(s, code, from + 1)
  }

  /** Python's `s.find(bytes([0xFF, code]))`: the first position of the marker, or -1. */
  function Find(s: seq<Byte>, code: Byte): (r: int)
    ensures r == -1 <==> !Contains(s, code)
    ensures r != -1 ==> MarkerAt(s, r, code)
    ensures forall j :: 0 <= j < r ==> !MarkerAt(s, j, code)
  {
    FindFrom(s, code, 0)
  }

  /** A position holding the marker with no earlier occurrence is what `Find` returns. */
  lemma FindIsFirst(s: seq<Byte>, code: Byte, i: int)
    requires MarkerAt(s, i, code)
    requires forall j :: 0 <= j < i ==> !MarkerAt(s, j, code)
    ensures Find(s, code) == i
  {
  }

  /** The two markers never overlap: their positions are at least two apart. */
  lemma MarkersApart(s: seq<Byte>, i: int, j: int)
    requires MarkerAt(s, i, Soi) && MarkerAt(s, j, Eoi)
    ensures i + 2 <= j || j + 2 <= i
  {
  }

  /** Appending bytes does not move a marker that is already present. */
  lemma FindInPrefix(a: seq<Byte>, b: seq<Byte>, code: Byte)
    requires Contains(a, code)
    ensures Contains(a + b, code)
    ensures Find(a + b, code) == Find(a, code)
  {
    var i := Find(a, code);
    assert MarkerAt(a + b, i, code);
    forall j | 0 <= j < i
      ensures !MarkerAt(a + b, j, code)
    {
      assert !MarkerAt(a, j, code);
    }
    FindIsFirst(a + b, code, i);
  }

  /** Dropping `k` bytes shifts every marker position after them by `k`. */
  lemma MarkerAtSuffix(s: seq<Byte>, k: nat, j: int, code: Byte)
    requires k <= |s|
    ensures MarkerAt(s[k..], j, code) <==> (0 <= j && MarkerAt(s, j + k, code))
  {
  }

}

=== FILE: optional.dfy ===
/** A value or nothing: Python's `None` where the programs return or store an optional value. */
module Optional {

  datatype Option<+T> = None | Some(value: T)

}

=== FILE: receiver.dfy ===
/**
 * The receiving server of the rotating viewer: an endless accept loop. Each
 * accepted connection starts with an empty buffer; each read appends to the
 * buffer and runs the extraction loop; an empty read or any exception ends
 * the connection, clears the latest frame and goes back to accepting.
 */
module Receiver {
  import opened Optional
  import opened Markers
  import opened FrameSlot
  import opened FrameDelimiter
  import opened Seqs

  /** `self.buffer`, `self.latest_frame` and `self.conn_alive`. */
  datatype State<F> = State(buffer: seq<Byte>, latest: Option<F>, connAlive: bool)

  /**
   * What the blocking call the server is waiting in returns: `accept`
   * returning a connection, `recv` returning bytes (empty at end of
   * stream), or either of them raising.
   */
  datatype Event = Accepted | Received(data: seq<Byte>) | Raised

  /** The state set up before the server thread starts. */
  function Init<F>(): State<F> {
    State([], None, false)
  }

  /** `accept` is awaited while no connection is alive, `recv` while one is. */
  predicate Possible<F>(s: State<F>, ev: Event) {
    match ev
    case Accepted => !s.connAlive
    case Received(_) => s.connAlive
    case Raised => true
  }

  /** The exception handler: the frame is dropped and the connection marked dead. */
  function Disconnect<F>(s: State<F>): State<F> {
    State(s.buffer, None, false)
  }

  /** The server's reaction to one event. */
  function Next<F>(s: State<F>, ev: Event, decode: seq<Byte> -> Option<F>, raises: seq<Byte> -> bool): (t: State<F>)
    requires Possible(s, ev)
    ensures ev.Accepted? ==> t == State([], s.latest, true)
    ensures (ev.Raised? || ev == Received([])) ==> !t.connAlive && t.latest.None?
    // a read keeps the connection exactly when the decoder raises on none of its slices
    ensures ev.Received? && ev.data != [] ==>
              var e := Extract(s.buffer + ev.data);
              && (t.connAlive <==> NoneRaises(e.slices, raises))
              && (t.connAlive ==> t == State(e.residue, Publish(s.latest, e.slices, decode), true))
              && (!t.connAlive ==> t.latest.None?)
  {
    match ev
    case Accepted => State([], s.latest, true)
    case Received(data) =>
      if data == [] then Disconnect(s)
      else
        var d := Drain(s.buffer + data, s.latest, decode, raises);
        DrainSpec(s.buffer + data, s.latest, decode, raises);
        if d.raised then
          Disconnect(State(d.buffer, d.latest, true))
        else
          DrainWithoutRaise(s.buffer + data, s.latest, decode, raises);
          State(d.buffer, d.latest, true)
    case Raised => Disconnect(s)
  }

  /**
   * Between events the server keeps: no frame without a live connection,
   * and, on a live connection, a buffer the extraction loop has exhausted.
   */
  predicate Invariant<F>(s: State<F>) {
    (!s.connAlive ==> s.latest.None?) && (s.connAlive ==> !HasBothMarkers(s.buffer))
  }

  lemma InitInvariant<F>()
    ensures Invariant(Init<F>())
  {
  }

  /** Every event keeps the invariant. */
  lemma NextInvariant<F>(s: State<F>, ev: Event, decode: seq<Byte> -> Option<F>, raises: seq<Byte> -> bool)
    requires Invariant(s) && Possible(s, ev)
    ensures Invariant(Next(s, ev, decode, raises))
  {
  }

  /** The latest frame changes only to something the decoder produced or to nothing on disconnect. */
  lemma LatestChangesOnlyByDecodeOrDisconnect<F>(s: State<F>, ev: Event, decode: seq<Byte> -> Option<F>, raises: seq<Byte> -> bool)
    requires Possible(s, ev)
    ensures var t := Next(s, ev, decode, raises);
            || t.latest == s.latest
            || (t.latest.None? && !t.connAlive)
            || (ev.Received? && DecodedFrom(t.latest, Extract(s.buffer + ev.data).slices, decode))
  {
  }

  /** A run of non-empty reads on a live connection, until the connection is lost. */
  function Session<F>(s: State<F>, chunks: seq<seq<Byte>>, decode: seq<Byte> -> Option<F>, raises: seq<Byte> -> bool): State<F>
    requires s.connAlive
    requires forall k | 0 <= k < |chunks| :: chunks[k] != []
    decreases |chunks|
  {
    if |chunks| == 0 then s
    else
      var t := Next(s, Received(chunks[0]), decode, raises);
      if !t.connAlive then t else Session(t, chunks[1..], decode, raises)
  }

  /**
   * A session in which the decoder never raises behaves as one extraction
   * over everything received, started from the buffer.
   */
  lemma {:induction false} SessionIsOneExtraction<F>(s: State<F>, chunks: seq<seq<Byte>>, decode: seq<Byte> -> Option<F>, raises: seq<Byte> -> bool)
    requires s.connAlive && !HasBothMarkers(s.buffer)
    requires forall k | 0 <= k < |chunks| :: chunks[k] != []
    requires NoneRaises(Extract(s.buffer + Flatten(chunks)).slices, raises)
    ensures var e := Extract(s.buffer + Flatten(chunks));
            Session(s, chunks, decode, raises) == State(e.residue, Publish(s.latest, e.slices, decode), true)
    decreases |chunks|
  {
    if |chunks| == 0 {
      EmptyAppend(s.buffer);
    } else {
      var rest := chunks[1..];
      var first := Extract(s.buffer + chunks[0]);
      var eb := Extract(first.residue + Flatten(rest));
      AppendAssoc(s.buffer, chunks[0], Flatten(rest));
      ExtractAppend(s.buffer + chunks[0], Flatten(rest));
      NoneRaisesAppend(first.slices, eb.slices, raises);
      var t := Next(s, Received(chunks[0]), decode, raises);
      SessionIsOneExtraction(t, rest, decode, raises);
      PublishAppend(s.latest, first.slices, eb.slices, decode);
    }
  }

  /**
   * Reconnect isolation: after `accept`, what the connection yields depends
   * only on the bytes received on it, never on what was left in the buffer
   * from the previous connection. While the decoder does not raise, the
   * latest frame is then the last slice that decoded, or what it was before
   * the connection if none did.
   */
  lemma AcceptIsolatesConnections<F>(s: State<F>, chunks: seq<seq<Byte>>, decode: seq<Byte> -> Option<F>, raises: seq<Byte> -> bool)
    requires !s.connAlive
    requires forall k | 0 <= k < |chunks| :: chunks[k] != []
    requires NoneRaises(Extract(Flatten(chunks)).slices, raises)
    ensures var e := Extract(Flatten(chunks));
            Session(Next(s, Accepted, decode, raises), chunks, decode, raises)
              == State(e.residue, Overwrite(s.latest, LastDecoded(e.slices, decode)), true)
  {
    var t := Next(s, Accepted, decode, raises);
    EmptyAppend(Flatten(chunks));
    SessionIsOneExtraction(t, chunks, decode, raises);
    PublishKeepsLastDecoded(s.latest, Extract(Flatten(chunks)).slices, decode);
  }

  /** Any event sequence the server can see, applied in order; `None` if one is impossible where it occurs. */
  function Run<F>(s: State<F>, events: seq<Event>, decode: seq<Byte> -> Option<F>, raises: seq<Byte> -> bool): Option<State<F>>
    decreases |events|
  {
    if |events| == 0 then Some(s)
    else if !Possible(s, events[0]) then None
    else Run(Next(s, events[0], decode, raises), events[1..], decode, raises)
  }

  /** The invariant holds after every possible history from start-up. */
  lemma {:induction false} RunInvariant<F>(s: State<F>, events: seq<Event>, decode: seq<Byte> -> Option<F>, raises: seq<Byte> -> bool)
    requires Invariant(s)
    ensures Run(s, events, decode, raises).Some? ==> Invariant(Run(s, events, decode, raises).value)
    decreases |events|
  {
    if |events| > 0 && Possible(s, events[0]) {
      NextInvariant(s, events[0], decode, raises);
      RunInvariant(Next(s, events[0], decode, raises), events[1..], decode, raises);
    }
  }

}

=== FILE: reconnect.dfy ===
/**
 * The camera side's outer loop: prompt for the server address until a
 * non-empty one is given, connect, stream until `start_stream` returns,
 * and start over; a connection error waits a fixed delay first. Console
 * input, name resolution, connecting and streaming are oracles.
 */
module Reconnect {
  import opened Optional
  import Sender
  import Seqs

  /** Seconds waited after a connection error. */
  const ReconnectDelay: nat := 5

  /** The characters Python's `str.isspace` accepts, which `str.strip()` removes. */
  predicate IsSpace(c: char) {
    || ('\t' <= c <= '\r')
    || ('\U{1C}' <= c <= '\U{1F}')
    || c == ' ' || c == '\U{85}' || c == '\U{A0}' || c == '\U{1680}'
    || ('\U{2000}' <= c <= '\U{200A}')
    || c == '\U{2028}' || c == '\U{2029}' || c == '\U{202F}' || c == '\U{205F}' || c == '\U{3000}'
  }

  predicate AllSpace(s: string) {
    forall k | 0 <= k < |s| :: IsSpace(s[k])
  }

  /** `s.lstrip()`. */
  function StripLeft(s: string): (r: string)
    ensures |r| <= |s|
    decreases |s|
  {
    if |s| > 0 && IsSpace(s[0]) then StripLeft(s[1..]) else s
  }

  /** `s.rstrip()`. */
  function StripRight(s: string): (r: string)
    ensures |r| <= |s|
    decreases |s|
  {
    if |s| > 0 && IsSpace(s[|s| - 1]) then StripRight(s[..|s| - 1]) else s
  }

  /** `s.strip()`: the middle of `s` between whitespace runs at either end. */
  function Strip(s: string): string {
    StripRight(StripLeft(s))
  }

  /** `r` is `s` with exactly its leading whitespace removed. */
  predicate LeftStripped(s: string, r: string) {
    && |r| <= |s|
    && (forall i | 0 <= i < |r| :: r[i] == s[|s| - |r| + i])
    && (forall k | 0 <= k < |s| - |r| :: IsSpace(s[k]))
    && (r == [] || !IsSpace(r[0]))
  }

  /** `r` is `s` with exactly its trailing whitespace removed. */
  predicate RightStripped(s: string, r: string) {
    && |r| <= |s|
    && (forall i | 0 <= i < |r| :: r[i] == s[i])
    && (forall k | |r| <= k < |s| :: IsSpace(s[k]))
    && (r == [] || !IsSpace(r[|r| - 1]))
  }

  /** `lstrip` keeps a suffix, and removes exactly the leading whitespace. */
  lemma {:induction false} StripLeftSpec(s: string)
    ensures LeftStripped(s, StripLeft(s))
    decreases |s|
  {
    if |s| > 0 && IsSpace(s[0]) {
      StripLeftSpec(s[1..]);
      LeftStrippedSpace(s, StripLeft(s[1..]));
    }
  }

  /** A leading whitespace character is stripped along with the rest of the run. */
  lemma LeftStrippedSpace(s: string, r: string)
    requires |s| > 0 && IsSpace(s[0])
    requires LeftStripped(s[1..], r)
    ensures LeftStripped(s, r)
  {
    var t := s[1..];
    forall k | 0 <= k < |s| - |r|
      ensures IsSpace(s[k])
    {
      if k > 0 {
        assert s[k] == t[k - 1];
      }
    }
    forall i | 0 <= i < |r|
      ensures r[i] == s[|s| - |r| + i]
    {
      assert r[i] == t[|t| - |r| + i];
    }
  }

  /** `rstrip` keeps a prefix, and removes exactly the trailing whitespace. */
  lemma {:induction false} StripRightSpec(s: string)
    ensures RightStripped(s, StripRight(s))
    decreases |s|
  {
    if |s| > 0 && IsSpace(s[|s| - 1]) {
      StripRightSpec(s[..|s| - 1]);
      RightStrippedSpace(s, StripRight(s[..|s| - 1]));
    }
  }

  /** A trailing whitespace character is stripped along with the rest of the run. */
  lemma RightStrippedSpace(s: string, r: string)
    requires |s| > 0 && IsSpace(s[|s| - 1])
    requires RightStripped(s[..|s| - 1], r)
    ensures RightStripped(s, r)
  {
    var t := s[..|s| - 1];
    forall k | |r| <= k < |s|
      ensures IsSpace(s[k])
    {
      if k < |s| - 1 {
        assert s[k] == t[k];
      }
    }
  }

  /** `s` is `r` with the whitespace runs `s[..k]` and `s[k + |r|..]` around it. */
  predicate PaddedAt(s: string, r: string, k: nat) {
    && k + |r| <= |s|
    && AllSpace(s[..k])
    && s[k..k + |r|] == r
    && AllSpace(s[k + |r|..])
  }

  /** `strip` leaves no whitespace at either end, and removes only whitespace. */
  lemma StripSpec(s: string)
    ensures var r := Strip(s);
            && (r == [] || (!IsSpace(r[0]) && !IsSpace(r[|r| - 1])))
            && exists k :: PaddedAt(s, r, k)
  {
    StripEnds(s);
    StripPaddedAt(s);
  }

  lemma StripEnds(s: string)
    ensures var r := Strip(s); r == [] || (!IsSpace(r[0]) && !IsSpace(r[|r| - 1]))
  {
    var l := StripLeft(s);
    var r := StripRight(l);
    StripLeftSpec(s);
    StripRightSpec(l);
    if r != [] {
      assert r[0] == l[0];
    }
  }

  lemma StripPaddedAt(s: string)
    ensures PaddedAt(s, Strip(s), |s| - |StripLeft(s)|)
  {
    var l := StripLeft(s);
    StripLeftSpec(s);
    StripRightSpec(l);
    StripMiddle(s, l, StripRight(l));
  }

  lemma StripMiddle(s: string, l: string, r: string)
    requires LeftStripped(s, l) && RightStripped(l, r)
    ensures PaddedAt(s, r, |s| - |l|)
  {
    var k := |s| - |l|;
    var pre, mid, post := s[..k], s[k..k + |r|], s[k + |r|..];
    forall j | 0 <= j < |pre|
      ensures IsSpace(pre[j])
    {
      assert pre[j] == s[j];
    }
    forall i | 0 <= i < |mid|
      ensures mid[i] == r[i]
    {
      assert mid[i] == s[k + i] == l[i];
    }
    forall j | 0 <= j < |post|
      ensures IsSpace(post[j])
    {
      assert post[j] == l[|r| + j];
    }
    assert mid == r;
  }

  /** Whitespace padding around text with non-blank ends is exactly what strip removes. */
  lemma StripPadded(pre: string, body: string, post: string)
    requires AllSpace(pre) && AllSpace(post)
    requires body == [] || (!IsSpace(body[0]) && !IsSpace(body[|body| - 1]))
    ensures Strip(pre + body + post) == body
  {
    var tail := body + post;
    assert pre + body + post == pre + tail;
    if body == [] {
      assert tail == post;
      StripLeftPadded(pre, tail);
      assert StripLeft(pre + tail) == [];
    } else {
      assert tail[0] == body[0];
      assert !AllSpace(tail);
      StripLeftPadded(pre, tail);
      assert StripLeft(pre + tail) == tail;
      StripRightPadded(body, post);
    }
  }

  /** A single non-blank character survives strip unchanged. */
  lemma StripBare(c: char)
    requires !IsSpace(c)
    ensures Strip([c]) == [c]
  {
    assert StripLeft([c]) == [c];
    assert StripRight([c]) == [c];
  }

  lemma {:induction false} StripLeftPadded(pre: string, rest: string)
    requires AllSpace(pre)
    requires rest == [] || !IsSpace(rest[0]) || AllSpace(rest)
    ensures StripLeft(pre + rest) == if AllSpace(rest) then [] else rest
    decreases |pre|
  {
    if |pre| == 0 {
      assert pre + rest == rest;
      if AllSpace(rest) {
        StripLeftAllSpace(rest);
      }
    } else {
      assert (pre + rest)[1..] == pre[1..] + rest;
      StripLeftPadded(pre[1..], rest);
    }
  }

  lemma {:induction false} StripLeftAllSpace(s: string)
    requires AllSpace(s)
    ensures StripLeft(s) == []
    decreases |s|
  {
    if |s| > 0 {
      StripLeftAllSpace(s[1..]);
    }
  }

  lemma {:induction false} StripRightAllSpace(s: string)
    requires AllSpace(s)
    ensures StripRight(s) == []
    decreases |s|
  {
    if |s| > 0 {
      StripRightAllSpace(s[..|s| - 1]);
    }
  }

  lemma {:induction false} StripRightPadded(body: string, post: string)
    requires AllSpace(post)
    requires body != [] && !IsSpace(body[|body| - 1])
    ensures StripRight(body + post) == body
    decreases |post|
  {
    if |post| == 0 {
      assert body + post == body;
    } else {
      assert (body + post)[..|body + post| - 1] == body + post[..|post| - 1];
      StripRightPadded(body, post[..|post| - 1]);
    }
  }

  /** Stripping twice is stripping once. */
  lemma StripIdempotent(s: string)
    ensures Strip(Strip(s)) == Strip(s)
  {
    var r := Strip(s);
    StripSpec(s);
    StripPadded([], r, []);
    assert [] + r + [] == r;
  }

  /**
   * What `socket.gethostbyname` does with a host name: return an address,
   * raise `socket.gaierror`, or raise anything else (a host name the IDNA
   * codec rejects, such as `a..b`, raises `UnicodeError`).
   */
  datatype Lookup = Resolved(ip: string) | NotFound | Fails

  /** What `get_server_address` returns for a lookup its handler covers: the address, or `None` on `gaierror`. */
  function HostAddress(l: Lookup): Option<string>
    requires !l.Fails?
  {
    if l.Resolved? then Some(l.ip) else None
  }

  /**
   * The outcome of one `get_server_address`: an address or `None`, and how
   * many console lines it read; or the console ran out before it finished;
   * or an exception no handler catches left it, ending the client.
   */
  datatype Prompt = Answer(address: Option<string>, consumed: nat) | OutOfInput | Uncaught

  /**
   * `get_server_address`: read a choice; "1" reads a direct address, "2"
   * reads a host name and resolves it (`None` where `gethostbyname` raises
   * `socket.gaierror`), anything else is rejected. Every line read is
   * stripped.
   */
  function GetServerAddress(lines: seq<string>, resolve: string -> Lookup): (p: Prompt)
    ensures p.OutOfInput? <==> |lines| == 0 || (|lines| == 1 && (Strip(lines[0]) == "1" || Strip(lines[0]) == "2"))
    ensures p.Uncaught? ==> |lines| >= 2 && Strip(lines[0]) == "2" && resolve(Strip(lines[1])).Fails?
    ensures |lines| >= 2 && Strip(lines[0]) == "2" && resolve(Strip(lines[1])).Fails? ==> p.Uncaught?
    ensures p.Answer? ==> 1 <= p.consumed <= |lines| && p.consumed <= 2
    ensures p.Answer? && Strip(lines[0]) == "1" ==> p == Answer(Some(Strip(lines[1])), 2)
    ensures p.Answer? && Strip(lines[0]) == "2" ==>
              !resolve(Strip(lines[1])).Fails? && p == Answer(HostAddress(resolve(Strip(lines[1]))), 2)
    ensures p.Answer? && Strip(lines[0]) != "1" && Strip(lines[0]) != "2" ==> p == Answer(None, 1)
  {
    if |lines| == 0 then OutOfInput
    else
      var choice := Strip(lines[0]);
      if choice == "1" || choice == "2" then
        if |lines| < 2 then OutOfInput
        else if choice == "1" then Answer(Some(Strip(lines[1])), 2)
        else
          var host := resolve(Strip(lines[1]));
          if host.Fails? then Uncaught else Answer(HostAddress(host), 2)
      else Answer(None, 1)
  }

  /** A choice typed with surrounding blanks selects the same option as the bare choice. */
  lemma PaddedChoiceSelectsSame(pre: string, choice: string, post: string, rest: seq<string>, resolve: string -> Lookup)
    requires AllSpace(pre) && AllSpace(post)
    requires choice == "1" || choice == "2"
    ensures GetServerAddress([pre + choice + post] + rest, resolve) == GetServerAddress([choice] + rest, resolve)
  {
    StripPadded(pre, choice, post);
    StripBare(choice[0]);
    assert [choice[0]] == choice;
    SameChoiceSameAnswer([pre + choice + post] + rest, [choice] + rest, resolve);
  }

  /** Only the stripped choice and the lines after it matter to the prompt. */
  lemma SameChoiceSameAnswer(a: seq<string>, b: seq<string>, resolve: string -> Lookup)
    requires |a| == |b| > 0
    requires Strip(a[0]) == Strip(b[0])
    requires a[1..] == b[1..]
    ensures GetServerAddress(a, resolve) == GetServerAddress(b, resolve)
  {
    if |a| >= 2 {
      assert a[1] == a[1..][0] == b[1..][0] == b[1];
    }
  }

  /** A direct address never carries leading or trailing blanks. */
  lemma DirectAddressIsTrimmed(lines: seq<string>, resolve: string -> Lookup)
    requires |lines| >= 2 && Strip(lines[0]) == "1"
    ensures var p := GetServerAddress(lines, resolve);
            p.Answer? && p.address.Some? && Strip(p.address.value) == p.address.value
  {
    StripIdempotent(lines[1]);
  }

  /** `main`'s test `server_ip` is truthy: an address that is neither `None` nor empty. */
  predicate Accepts(a: Option<string>) {
    a.Some? && a.value != []
  }

  /** The address `main` goes on with, and the console lines read to get it. */
  datatype Chosen = Chosen(ip: string, consumed: nat)

  /**
   * `while not server_ip: server_ip = get_server_address()`: both `None`
   * and the empty string are rejected and the user is asked again. `None`
   * here means no address ever comes: the console ran out, or an exception
   * no handler catches ended the client.
   */
  function AwaitAddress(lines: seq<string>, resolve: string -> Lookup): (c: Option<Chosen>)
    ensures c.Some? ==> c.value.ip != [] && 1 <= c.value.consumed <= |lines|
    decreases |lines|
  {
    match GetServerAddress(lines, resolve)
    case OutOfInput => None
    case Uncaught => None
    case Answer(a, n) =>
      if Accepts(a) then Some(Chosen(a.value, n))
      else
        match AwaitAddress(lines[n..], resolve)
        case None => None
        case Some(c) => Some(Chosen(c.ip, n + c.consumed))
  }

  /** What one `get_server_address` call returned, and how many lines it read. */
  datatype Asked = Asked(address: Option<string>, consumed: nat)

  /**
   * Reference: the answers of `get_server_address` called again and again
   * on the console, each call reading where the previous one stopped, until
   * the console runs out or a call raises past every handler.
   */
  function Prompts(lines: seq<string>, resolve: string -> Lookup): (ps: seq<Asked>)
    decreases |lines|
  {
    match GetServerAddress(lines, resolve)
    case OutOfInput => []
    case Uncaught => []
    case Answer(a, n) => [Asked(a, n)] + Prompts(lines[n..], resolve)
  }

  /** The lines read by the first `k` prompts. */
  function Used(ps: seq<Asked>, k: nat): nat
    requires k <= |ps|
    decreases k
  {
    if k == 0 then 0 else ps[0].consumed + Used(ps[1..], k - 1)
  }

  /** The position of the first answer `main` accepts, or `|ps|` when there is none. */
  function FirstAccepted(ps: seq<Asked>): (k: nat)
    ensures k <= |ps|
    ensures forall j | 0 <= j < k :: !Accepts(ps[j].address)
    ensures k < |ps| ==> Accepts(ps[k].address)
    decreases |ps|
  {
    if |ps| == 0 then 0
    else if Accepts(ps[0].address) then 0
    else
      var k := 1 + FirstAccepted(ps[1..]);
      assert forall j | 1 <= j < k :: ps[j] == ps[1..][j - 1];
      k
  }

  /**
   * The reference is what the program sees: each answer is a fresh
   * `get_server_address` on the lines after the previous answers, and
   * after the last one the console has run out or the next call raises
   * past every handler.
   */
  lemma {:induction false} PromptsAreSuccessive(lines: seq<string>, resolve: string -> Lookup)
    ensures var ps := Prompts(lines, resolve);
            && Used(ps, |ps|) <= |lines|
            && !GetServerAddress(lines[Used(ps, |ps|)..], resolve).Answer?
            && AnswersInTurn(lines, resolve, ps)
    decreases |lines|
  {
    var ps := Prompts(lines, resolve);
    var p := GetServerAddress(lines, resolve);
    if !p.Answer? {
      PromptStops(lines, resolve);
      assert lines[0..] == lines;
    } else {
      var n := p.consumed;
      PromptAnswers(lines, resolve);
      var rest := Prompts(lines[n..], resolve);
      PromptsAreSuccessive(lines[n..], resolve);
      assert ps[1..] == rest;
      assert Used(ps, |ps|) == n + Used(rest, |rest|);
      Seqs.SliceOfSuffix(lines, n, n + Used(rest, |rest|), |lines|);
      AnswersShift(lines, resolve);
    }
  }

  /** Every prompt of the reference answers on the lines after the earlier prompts. */
  ghost predicate AnswersInTurn(lines: seq<string>, resolve: string -> Lookup, ps: seq<Asked>) {
    forall k | 0 <= k < |ps| ::
      Used(ps, k) <= |lines| && GetServerAddress(lines[Used(ps, k)..], resolve) == Answer(ps[k].address, ps[k].consumed)
  }

  /** The first answer followed by the answers on the lines after it are the answers in turn. */
  lemma AnswersShift(lines: seq<string>, resolve: string -> Lookup)
    requires GetServerAddress(lines, resolve).Answer?
    requires var n := GetServerAddress(lines, resolve).consumed;
             n <= |lines| && AnswersInTurn(lines[n..], resolve, Prompts(lines[n..], resolve))
    ensures AnswersInTurn(lines, resolve, Prompts(lines, resolve))
  {
    var p := GetServerAddress(lines, resolve);
    var n := p.consumed;
    PromptAnswers(lines, resolve);
    var ps := Prompts(lines, resolve);
    var rest := Prompts(lines[n..], resolve);
    forall k | 0 <= k < |ps|
      ensures Used(ps, k) <= |lines| && GetServerAddress(lines[Used(ps, k)..], resolve) == Answer(ps[k].address, ps[k].consumed)
    {
      if k == 0 {
        assert ps[0] == Asked(p.address, n);
        assert lines[0..] == lines;
      } else {
        AnswerShiftsAt(lines, resolve, p.address, n, rest, k);
      }
    }
  }

  /** A later prompt of the lines after the first answer is the prompt one further on of the whole input. */
  lemma AnswerShiftsAt(lines: seq<string>, resolve: string -> Lookup, a: Option<string>, n: nat, rest: seq<Asked>, k: nat)
    requires n <= |lines| && 0 < k <= |rest|
    requires AnswersInTurn(lines[n..], resolve, rest)
    ensures var ps := [Asked(a, n)] + rest;
            Used(ps, k) <= |lines| && GetServerAddress(lines[Used(ps, k)..], resolve) == Answer(ps[k].address, ps[k].consumed)
  {
    UsedCons(a, n, rest, k);
    var m := Used(rest, k - 1);
    assert m <= |lines[n..]| && GetServerAddress(lines[n..][m..], resolve) == Answer(rest[k - 1].address, rest[k - 1].consumed);
    Seqs.SliceOfSuffix(lines, n, n + m, |lines|);
  }

  /** Past the first prompt, the prompts and the lines they read shift by that prompt. */
  lemma UsedCons(a: Option<string>, n: nat, rest: seq<Asked>, k: nat)
    requires 0 < k <= |rest|
    ensures var ps := [Asked(a, n)] + rest;
            ps[k] == rest[k - 1] && Used(ps, k) == n + Used(rest, k - 1)
  {
    var ps := [Asked(a, n)] + rest;
    assert ps[1..] == rest;
  }

  /**
   * `while not server_ip` takes the first answer that is neither `None`
   * nor empty, after reading the lines of every prompt up to it, and finds
   * none exactly when every answer before the console ran out was rejected.
   */
  lemma AwaitAddressTakesFirstAccepted(lines: seq<string>, resolve: string -> Lookup)
    ensures var ps := Prompts(lines, resolve);
            var k := FirstAccepted(ps);
            && AwaitAddress(lines, resolve) == (if k == |ps| then None else Some(Chosen(ps[k].address.value, Used(ps, k + 1))))
            && (AwaitAddress(lines, resolve).None? <==> forall j | 0 <= j < |ps| :: !Accepts(ps[j].address))
  {
    TakesFirstAccepted(lines, resolve);
  }

  /** The answer `while not server_ip` takes from the reference, with the lines read up to it. */
  function TakeFirst(ps: seq<Asked>): Option<Chosen> {
    var k := FirstAccepted(ps);
    if k == |ps| then None else Some(Chosen(ps[k].address.value, Used(ps, k + 1)))
  }

  /** The loop's result in terms of the reference. */
  ghost predicate ChoosesFirstAccepted(lines: seq<string>, resolve: string -> Lookup) {
    AwaitAddress(lines, resolve) == TakeFirst(Prompts(lines, resolve))
  }

  /** The induction over the prompts behind `AwaitAddressTakesFirstAccepted`. */
  lemma {:induction false} TakesFirstAccepted(lines: seq<string>, resolve: string -> Lookup)
    ensures ChoosesFirstAccepted(lines, resolve)
    decreases |lines|
  {
    var p := GetServerAddress(lines, resolve);
    if !p.Answer? {
      PromptStops(lines, resolve);
    } else {
      PromptAnswers(lines, resolve);
      TakesFirstAccepted(lines[p.consumed..], resolve);
      TakeFirstCons(p.address, p.consumed, Prompts(lines[p.consumed..], resolve));
    }
  }

  /** Taking from the reference follows the loop: an accepted head is taken, a rejected one shifts the rest. */
  lemma TakeFirstCons(a: Option<string>, n: nat, rest: seq<Asked>)
    ensures TakeFirst([Asked(a, n)] + rest)
              == if Accepts(a) then Some(Chosen(a.value, n))
                 else match TakeFirst(rest)
                      case None => None
                      case Some(c) => Some(Chosen(c.ip, n + c.consumed))
  {
    var ps := [Asked(a, n)] + rest;
    assert ps[0] == Asked(a, n);
    assert ps[1..] == rest;
    if Accepts(a) {
      assert Used(ps, 1) == n + Used(rest, 0);
    } else {
      var k := FirstAccepted(rest);
      if k < |rest| {
        assert ps[k + 1] == rest[k];
        assert Used(ps, k + 2) == n + Used(rest, k + 1);
      }
    }
  }

  /** A prompt that yields no answer ends both the reference and the loop. */
  lemma PromptStops(lines: seq<string>, resolve: string -> Lookup)
    requires !GetServerAddress(lines, resolve).Answer?
    ensures Prompts(lines, resolve) == [] && AwaitAddress(lines, resolve).None?
  {
  }

  /** An answer is the head of the reference, and the loop accepts it or asks again on the lines after it. */
  lemma PromptAnswers(lines: seq<string>, resolve: string -> Lookup)
    requires GetServerAddress(lines, resolve).Answer?
    ensures var p := GetServerAddress(lines, resolve);
            && p.consumed <= |lines|
            && Prompts(lines, resolve) == [Asked(p.address, p.consumed)] + Prompts(lines[p.consumed..], resolve)
            && AwaitAddress(lines, resolve)
                 == if Accepts(p.address) then Some(Chosen(p.address.value, p.consumed))
                    else match AwaitAddress(lines[p.consumed..], resolve)
                         case None => None
                         case Some(c) => Some(Chosen(c.ip, p.consumed + c.consumed))
  {
  }

  /**
   * What happens after an address is chosen, as the outside world decides
   * it. `ConnectFails`: creating or connecting the socket raises.
   * `StartRaises`: `start_stream` raises before its loop, because
   * `subprocess.Popen` fails or an interrupt arrives before the inner
   * `try`; nothing is sent and no cleanup runs. `Connects`: the connection
   * is made and `start_stream` runs on the given capture oracle.
   */
  datatype Attempt = ConnectFails | StartRaises | Connects(exitedAtSpawn: bool, pulls: seq<Sender.Pull>)

  /** How a round ended: the stream run, if `start_stream` got that far, and the seconds slept after it. */
  datatype Outcome = Outcome(run: Option<Sender.Run>, delay: nat)

  /** One pass of `main`'s loop: the address dialled and how the round ended. */
  datatype Round = Round(ip: string, outcome: Outcome)

  /** The round ends in `main`'s exception handler. */
  predicate Raises(a: Attempt) {
    || a.ConnectFails?
    || a.StartRaises?
    || (a.Connects? && Sender.StartStream(a.exitedAtSpawn, a.pulls).exit == Sender.ReadRaised)
  }

  /** The round is over when the oracles run out: `start_stream` returned or raised. */
  predicate Finishes(a: Attempt) {
    !(a.Connects? && Sender.StartStream(a.exitedAtSpawn, a.pulls).exit == Sender.StillStreaming)
  }

  /** The body of `main`'s `try` and its handler, after the address is chosen. */
  function Dial(a: Attempt): Outcome {
    match a
    case ConnectFails => Outcome(None, ReconnectDelay)
    case StartRaises => Outcome(None, ReconnectDelay)
    case Connects(exited, pulls) =>
      var run := Sender.StartStream(exited, pulls);
      Outcome(Some(run), if run.exit == Sender.ReadRaised then ReconnectDelay else 0)
  }

  /**
   * `main`'s endless loop, for as long as the oracles last: each round
   * chooses an address, dials it and streams, and sleeps after any
   * exception that reaches the handler; a round whose stream is still
   * running when the oracles run out is the last one.
   */
  function MainLoop(lines: seq<string>, resolve: string -> Lookup, attempts: seq<Attempt>): (rounds: seq<Round>)
    decreases |attempts|
  {
    if |attempts| == 0 then []
    else
      match AwaitAddress(lines, resolve)
      case None => []
      case Some(c) =>
        var round := Round(c.ip, Dial(attempts[0]));
        if !Finishes(attempts[0]) then [round]
        else [round] + MainLoop(lines[c.consumed..], resolve, attempts[1..])
  }

  /**
   * What a round records about its attempt: a non-empty address; the
   * reconnect delay exactly when an exception reached the handler and no
   * delay otherwise; and the stream run exactly when the connection was made.
   */
  predicate Describes(r: Round, a: Attempt) {
    && r.ip != []
    && (if Raises(a) then r.outcome.delay == ReconnectDelay else r.outcome.delay == 0)
    && (a.Connects? ==> r.outcome.run == Some(Sender.StartStream(a.exitedAtSpawn, a.pulls)))
    && (!a.Connects? ==> r.outcome.run.None?)
  }

  /**
   * Every round dials the address the console supplied for it, which is
   * non-empty, and sleeps `RECONNECT_DELAY` exactly when connecting or
   * `start_stream` raised; after a stream that returned the next round
   * starts at once. Only a round whose stream is still running can be the
   * last before the oracles run out.
   */
  lemma {:induction false} RoundsOfMain(lines: seq<string>, resolve: string -> Lookup, attempts: seq<Attempt>)
    ensures var rounds := MainLoop(lines, resolve, attempts);
            && |rounds| <= |attempts|
            && DialsInTurn(rounds, Choices(lines, resolve, |attempts|))
            && (forall i | 0 <= i < |rounds| :: Describes(rounds[i], attempts[i]))
            && (forall i | 0 <= i < |rounds| - 1 :: Finishes(attempts[i]))
    decreases |attempts|
  {
    DialsChoices(lines, resolve, attempts);
    if |attempts| > 0 {
      var c := AwaitAddress(lines, resolve);
      if c.Some? && Finishes(attempts[0]) {
        var rest := MainLoop(lines[c.value.consumed..], resolve, attempts[1..]);
        RoundsOfMain(lines[c.value.consumed..], resolve, attempts[1..]);
        var rounds := MainLoop(lines, resolve, attempts);
        assert rounds[1..] == rest;
        assert forall i | 1 <= i < |rounds| :: rounds[i] == rest[i - 1] && attempts[i] == attempts[1..][i - 1];
      }
    }
  }

  /** Every stream before the last one finished. */
  predicate FinishedBeforeLast(attempts: seq<Attempt>) {
    forall k | 0 <= k < |attempts| - 1 :: Finishes(attempts[k])
  }

  /**
   * Reference: the addresses the console supplies for `n` rounds in turn,
   * each chosen by `while not server_ip` on the lines after the previous
   * choice, and fewer when no address comes.
   */
  function Choices(lines: seq<string>, resolve: string -> Lookup, n: nat): (cs: seq<Chosen>)
    decreases n
  {
    if n == 0 then []
    else
      match AwaitAddress(lines, resolve)
      case None => []
      case Some(c) => [c] + Choices(lines[c.consumed..], resolve, n - 1)
  }

  /** Each round dials the address chosen for it, and there is a choice for every round. */
  predicate DialsInTurn(rounds: seq<Round>, cs: seq<Chosen>) {
    |rounds| <= |cs| && forall i | 0 <= i < |rounds| :: rounds[i].ip == cs[i].ip
  }

  /** The console holds `n` accepted addresses, one prompt after another. */
  predicate AnsweredTimes(lines: seq<string>, resolve: string -> Lookup, n: nat) {
    |Choices(lines, resolve, n)| == n
  }

  /** The induction behind the addresses of `RoundsOfMain`. */
  lemma {:induction false} DialsChoices(lines: seq<string>, resolve: string -> Lookup, attempts: seq<Attempt>)
    ensures DialsInTurn(MainLoop(lines, resolve, attempts), Choices(lines, resolve, |attempts|))
    decreases |attempts|
  {
    if |attempts| > 0 && AwaitAddress(lines, resolve).Some? {
      var c := AwaitAddress(lines, resolve).value;
      DialsChoices(lines[c.consumed..], resolve, attempts[1..]);
      DialsChoicesStep(lines, resolve, attempts);
    } else {
      MainLoopStops(lines, resolve, attempts);
    }
  }

  /** The rounds dial the choices in turn once the rounds after the first one do. */
  lemma DialsChoicesStep(lines: seq<string>, resolve: string -> Lookup, attempts: seq<Attempt>)
    requires |attempts| > 0 && AwaitAddress(lines, resolve).Some?
    requires var c := AwaitAddress(lines, resolve).value;
             DialsInTurn(MainLoop(lines[c.consumed..], resolve, attempts[1..]), Choices(lines[c.consumed..], resolve, |attempts| - 1))
    ensures DialsInTurn(MainLoop(lines, resolve, attempts), Choices(lines, resolve, |attempts|))
  {
    var c := AwaitAddress(lines, resolve).value;
    var rest := lines[c.consumed..];
    MainLoopCons(lines, resolve, attempts);
    ChoicesCons(lines, resolve, |attempts|);
    var later := if Finishes(attempts[0]) then MainLoop(rest, resolve, attempts[1..]) else [];
    DialsInTurnCons(MainLoop(lines, resolve, attempts), Choices(lines, resolve, |attempts|),
                    Round(c.ip, Dial(attempts[0])), c, later, Choices(rest, resolve, |attempts| - 1));
  }

  /** A round dialling the first choice, followed by rounds dialling the later ones in turn. */
  lemma DialsInTurnCons(all: seq<Round>, allCs: seq<Chosen>, r: Round, c: Chosen, rounds: seq<Round>, cs: seq<Chosen>)
    requires all == [r] + rounds && allCs == [c] + cs
    requires r.ip == c.ip && DialsInTurn(rounds, cs)
    ensures DialsInTurn(all, allCs)
  {
    forall i | 1 <= i < |all|
      ensures all[i].ip == allCs[i].ip
    {
      assert all[i] == rounds[i - 1];
      assert allCs[i] == cs[i - 1];
    }
  }

  /** A chosen address yields one round, followed by the rounds on the remaining input when the stream finished. */
  lemma MainLoopCons(lines: seq<string>, resolve: string -> Lookup, attempts: seq<Attempt>)
    requires |attempts| > 0 && AwaitAddress(lines, resolve).Some?
    ensures var c := AwaitAddress(lines, resolve).value;
            MainLoop(lines, resolve, attempts)
              == [Round(c.ip, Dial(attempts[0]))]
                 + if Finishes(attempts[0]) then MainLoop(lines[c.consumed..], resolve, attempts[1..]) else []
  {
  }

  /** A chosen address is the first choice, followed by the choices on the remaining input. */
  lemma ChoicesCons(lines: seq<string>, resolve: string -> Lookup, n: nat)
    requires n > 0 && AwaitAddress(lines, resolve).Some?
    ensures var c := AwaitAddress(lines, resolve).value;
            Choices(lines, resolve, n) == [c] + Choices(lines[c.consumed..], resolve, n - 1)
  {
  }

  /**
   * The loop ends only when no address comes (the console runs out, or a
   * lookup raises past every handler) or a stream is still running: it
   * makes every attempt exactly when the console keeps supplying addresses
   * and every stream but the last one has finished.
   */
  lemma {:induction false} EveryAttemptIsMade(lines: seq<string>, resolve: string -> Lookup, attempts: seq<Attempt>)
    ensures (|MainLoop(lines, resolve, attempts)| == |attempts|)
        <==> (AnsweredTimes(lines, resolve, |attempts|) && FinishedBeforeLast(attempts))
    decreases |attempts|
  {
    if |attempts| > 0 && AwaitAddress(lines, resolve).Some? {
      var c := AwaitAddress(lines, resolve).value;
      EveryAttemptIsMade(lines[c.consumed..], resolve, attempts[1..]);
      EveryAttemptStep(lines, resolve, attempts);
    } else {
      MainLoopStops(lines, resolve, attempts);
    }
  }

  /** Every attempt is made exactly under the condition once that holds for the attempts after the first. */
  lemma EveryAttemptStep(lines: seq<string>, resolve: string -> Lookup, attempts: seq<Attempt>)
    requires |attempts| > 0 && AwaitAddress(lines, resolve).Some?
    requires var rest := lines[AwaitAddress(lines, resolve).value.consumed..];
             ((|MainLoop(rest, resolve, attempts[1..])| == |attempts| - 1)
                <==> (AnsweredTimes(rest, resolve, |attempts| - 1) && FinishedBeforeLast(attempts[1..])))
    ensures (|MainLoop(lines, resolve, attempts)| == |attempts|)
        <==> (AnsweredTimes(lines, resolve, |attempts|) && FinishedBeforeLast(attempts))
  {
    MainLoopAdvances(lines, resolve, attempts);
    AnsweredTimesStep(lines, resolve, |attempts|);
    FinishedBeforeLastCons(attempts);
  }

  /** Splitting the condition on the streams at the first attempt. */
  lemma FinishedBeforeLastCons(attempts: seq<Attempt>)
    requires |attempts| > 0
    ensures FinishedBeforeLast(attempts)
        <==> (|attempts| == 1 || (Finishes(attempts[0]) && FinishedBeforeLast(attempts[1..])))
  {
    if |attempts| > 1 && Finishes(attempts[0]) && FinishedBeforeLast(attempts[1..]) {
      forall k | 0 <= k < |attempts| - 1
        ensures Finishes(attempts[k])
      {
        if k > 0 {
          assert attempts[k] == attempts[1..][k - 1];
        }
      }
    }
    if FinishedBeforeLast(attempts) && |attempts| > 1 {
      forall k | 0 <= k < |attempts| - 2
        ensures Finishes(attempts[1..][k])
      {
        assert attempts[1..][k] == attempts[k + 1];
      }
    }
  }

  /** Answering "1" and the same trimmed address `n` times supplies `n` addresses. */
  lemma {:induction false} DirectAnswersSuffice(ip: string, n: nat, resolve: string -> Lookup)
    requires ip != [] && Strip(ip) == ip
    ensures AnsweredTimes(DirectAnswers(ip, n), resolve, n)
    decreases n
  {
    if n > 0 {
      DirectAnswersSuffice(ip, n - 1, resolve);
      DirectAnswersStep(ip, n, resolve);
    }
  }

  /** One more "1" and address pair in front of the console input supplies one more address. */
  lemma DirectAnswersStep(ip: string, n: nat, resolve: string -> Lookup)
    requires ip != [] && Strip(ip) == ip && n > 0
    requires AnsweredTimes(DirectAnswers(ip, n - 1), resolve, n - 1)
    ensures AnsweredTimes(DirectAnswers(ip, n), resolve, n)
  {
    DirectAnswersChosen(ip, n, resolve);
  }

  /** A chosen address yields one round, and the loop goes on with the remaining input unless the stream is still running. */
  lemma MainLoopAdvances(lines: seq<string>, resolve: string -> Lookup, attempts: seq<Attempt>)
    requires |attempts| > 0 && AwaitAddress(lines, resolve).Some?
    ensures var c := AwaitAddress(lines, resolve).value;
            |MainLoop(lines, resolve, attempts)|
              == 1 + if Finishes(attempts[0]) then |MainLoop(lines[c.consumed..], resolve, attempts[1..])| else 0
  {
  }

  /** One more address from the console is one more answer counted. */
  lemma AnsweredTimesStep(lines: seq<string>, resolve: string -> Lookup, n: nat)
    requires n > 0 && AwaitAddress(lines, resolve).Some?
    ensures var c := AwaitAddress(lines, resolve).value;
            AnsweredTimes(lines, resolve, n) == AnsweredTimes(lines[c.consumed..], resolve, n - 1)
  {
    ChoicesCons(lines, resolve, n);
  }

  /** Without attempts left, or without an address, the loop makes no more rounds. */
  lemma MainLoopStops(lines: seq<string>, resolve: string -> Lookup, attempts: seq<Attempt>)
    requires |attempts| == 0 || AwaitAddress(lines, resolve).None?
    ensures MainLoop(lines, resolve, attempts) == []
  {
  }

  /** Each "1" and address pair on the console is chosen in one pass of the prompt. */
  lemma DirectAnswersChosen(ip: string, n: nat, resolve: string -> Lookup)
    requires ip != [] && Strip(ip) == ip && n > 0
    ensures AwaitAddress(DirectAnswers(ip, n), resolve) == Some(Chosen(ip, 2))
    ensures DirectAnswers(ip, n)[2..] == DirectAnswers(ip, n - 1)
  {
    var lines := DirectAnswers(ip, n);
    assert lines[0] == "1" && lines[1] == ip;
    StripBare('1');
    assert ['1'] == "1";
    assert GetServerAddress(lines, resolve) == Answer(Some(ip), 2);
  }

  /** The console answering "1" and the same address, `n` times. */
  function DirectAnswers(ip: string, n: nat): (lines: seq<string>)
    ensures |lines| == 2 * n
    decreases n
  {
    if n == 0 then [] else ["1", ip] + DirectAnswers(ip, n - 1)
  }

}

=== FILE: sender.dfy ===
/**
 * The camera side's forwarding loop: start the capture process, then read
 * its output in chunks and send each chunk over the connection until the
 * capture output ends, a send fails or the user interrupts; on every exit
 * from that loop terminate the capture process and close the socket.
 *
 * The capture process and the socket are oracles: the model is given what
 * each read of the capture pipe returns and whether sending it succeeded.
 */
module Sender {
  import opened Markers
  import opened Seqs

  /**
   * One pass of the loop as the outside world decides it: the bytes
   * `proc.stdout.read(4096)` returned and whether `sock.sendall` of them
   * succeeded (ignored for an empty read, which is not sent), a keyboard
   * interrupt, or the pipe read raising an `OSError`, which no handler
   * inside `start_stream` catches.
   */
  datatype Pull = Read(bytes: seq<Byte>, sendOk: bool) | Interrupt | ReadFails

  /**
   * Why `start_stream` returned, that it raised out of its loop (after the
   * `finally` cleanup), or that it is still looping when the oracle runs out.
   */
  datatype Exit = CaptureNotStarted | CaptureEnded | SendFailed | StoppedByUser | ReadRaised | StillStreaming

  /** What one call did: why it stopped, the bytes delivered, the pulls consumed, and the cleanup calls made. */
  datatype Run = Run(exit: Exit, sent: seq<Byte>, used: nat, terminateCalls: nat, closeCalls: nat)

  /** A pull the loop sends and then continues after. */
  predicate Forwarded(p: Pull) {
    p.Read? && p.bytes != [] && p.sendOk
  }

  /** The bytes each pull read (none for an interrupt). */
  function Chunks(pulls: seq<Pull>): (cs: seq<seq<Byte>>)
    ensures |cs| == |pulls|
    decreases |pulls|
  {
    if |pulls| == 0 then []
    else [if pulls[0].Read? then pulls[0].bytes else []] + Chunks(pulls[1..])
  }

  /** The loop's result before cleanup. */
  datatype Pumped = Pumped(exit: Exit, sent: seq<Byte>, used: nat)

  /** The number of pulls completed before the one that ended the loop. */
  function Completed(p: Pumped): int {
    if p.exit == StillStreaming then p.used else p.used - 1
  }

  /** The `while True` read/send loop. */
  function Forward(pulls: seq<Pull>): (p: Pumped)
    ensures p.exit != CaptureNotStarted
    ensures p.used <= |pulls|
    ensures 0 <= Completed(p)
    ensures p.exit == StillStreaming ==> p.used == |pulls|
    // everything before the last pull consumed was read, sent and sent in full
    ensures forall k | 0 <= k < Completed(p) :: Forwarded(pulls[k])
    ensures p.sent == Flatten(Chunks(pulls[..Completed(p)]))
    // the last pull consumed is what ended the loop
    ensures p.exit == CaptureEnded ==> pulls[p.used - 1].Read? && pulls[p.used - 1].bytes == []
    ensures p.exit == SendFailed ==> pulls[p.used - 1].Read? && pulls[p.used - 1].bytes != [] && !pulls[p.used - 1].sendOk
    ensures p.exit == StoppedByUser ==> pulls[p.used - 1].Interrupt?
    ensures p.exit == ReadRaised ==> pulls[p.used - 1].ReadFails?
    decreases |pulls|
  {
    if |pulls| == 0 then Pumped(StillStreaming, [], 0)
    else
      match pulls[0]
      case Interrupt => Pumped(StoppedByUser, [], 1)
      case ReadFails => Pumped(ReadRaised, [], 1)
      case Read(bytes, ok) =>
        if bytes == [] then Pumped(CaptureEnded, [], 1)
        else if !ok then Pumped(SendFailed, [], 1)
        else
          var rest := Forward(pulls[1..]);
          ForwardStep(pulls, rest.used, Completed(rest));
          Pumped(rest.exit, bytes + rest.sent, rest.used + 1)
  }

  /** Index bookkeeping for one more forwarded pull in front. */
  lemma ForwardStep(pulls: seq<Pull>, used: nat, done: nat)
    requires 0 < |pulls| && done <= used <= |pulls| - 1
    ensures pulls[1..][..done] == pulls[..done + 1][1..]
    ensures Chunks(pulls[..done + 1]) == [Chunks(pulls[..done + 1])[0]] + Chunks(pulls[1..][..done])
    ensures used > 0 ==> pulls[1..][used - 1] == pulls[used]
  {
  }

  /**
   * `start_stream`: if the capture process has already exited right after
   * spawning, return at once, sending nothing and skipping the cleanup;
   * otherwise run the loop and then terminate the process and close the
   * socket once.
   */
  function StartStream(exitedAtSpawn: bool, pulls: seq<Pull>): (r: Run)
    ensures exitedAtSpawn ==> r == Run(CaptureNotStarted, [], 0, 0, 0)
    ensures !exitedAtSpawn && r.exit != StillStreaming ==> r.terminateCalls == 1 && r.closeCalls == 1
    ensures r.exit == StillStreaming ==> r.terminateCalls == 0 && r.closeCalls == 0
    ensures !exitedAtSpawn ==> r.exit != CaptureNotStarted && r.used <= |pulls|
  {
    if exitedAtSpawn then Run(CaptureNotStarted, [], 0, 0, 0)
    else
      var p := Forward(pulls);
      var cleanup := if p.exit == StillStreaming then 0 else 1;
      Run(p.exit, p.sent, p.used, cleanup, cleanup)
  }

  /**
   * When every send succeeds, the bytes sent are the chunks read before
   * the first empty read, concatenated in order, and the loop stops there.
   */
  lemma SendsEverythingBeforeEmptyRead(pulls: seq<Pull>, e: nat)
    requires e < |pulls| && pulls[e].Read? && pulls[e].bytes == []
    requires forall k | 0 <= k < e :: Forwarded(pulls[k])
    ensures StartStream(false, pulls) == Run(CaptureEnded, Flatten(Chunks(pulls[..e])), e + 1, 1, 1)
  {
    FirstStop(pulls, e);
  }

  /** After the first failed send nothing more is read or sent, and the cleanup runs. */
  lemma NothingAfterFailedSend(pulls: seq<Pull>, i: nat)
    requires i < |pulls| && pulls[i].Read? && pulls[i].bytes != [] && !pulls[i].sendOk
    requires forall k | 0 <= k < i :: Forwarded(pulls[k])
    ensures StartStream(false, pulls) == Run(SendFailed, Flatten(Chunks(pulls[..i])), i + 1, 1, 1)
  {
    FirstStop(pulls, i);
  }

  /**
   * A failing pipe read ends the loop with the earlier chunks sent; the
   * cleanup still runs once before the exception leaves `start_stream`.
   */
  lemma FailedReadCleansUpAndRaises(pulls: seq<Pull>, i: nat)
    requires i < |pulls| && pulls[i].ReadFails?
    requires forall k | 0 <= k < i :: Forwarded(pulls[k])
    ensures StartStream(false, pulls) == Run(ReadRaised, Flatten(Chunks(pulls[..i])), i + 1, 1, 1)
  {
    FirstStop(pulls, i);
  }

  /** The loop consumes exactly the pulls up to and including the first one it does not forward. */
  lemma FirstStop(pulls: seq<Pull>, i: nat)
    requires i < |pulls| && !Forwarded(pulls[i])
    requires forall k | 0 <= k < i :: Forwarded(pulls[k])
    ensures Forward(pulls).used == i + 1 && Completed(Forward(pulls)) == i
  {
  }

}

=== FILE: seqs.dfy ===
/** Generic sequence facts, stated once so that proofs over nested sequences stay cheap. */
module Seqs {

  /** Concatenation of chunks, in order. */
  function Flatten<T>(chunks: seq<seq<T>>): seq<T>
    decreases |chunks|
  {
    if |chunks| == 0 then [] else chunks[0] + Flatten(chunks[1..])
  }

  lemma AppendAssoc<T>(x: seq<T>, y: seq<T>, z: seq<T>)
    ensures (x + y) + z == x + (y + z)
  {
  }

  lemma EmptyAppend<T>(x: seq<T>)
    ensures [] + x == x
    ensures x + [] == x
  {
  }

  lemma HeadTail<T>(s: seq<T>)
    requires |s| > 0
    ensures [s[0]] + s[1..] == s
  {
  }

  lemma TailOfCons<T>(x: T, s: seq<T>)
    ensures ([x] + s)[0] == x
    ensures ([x] + s)[1..] == s
  {
  }

  lemma SliceOfSuffix<T>(s: seq<T>, k: nat, i: nat, j: nat)
    requires k <= i <= j <= |s|
    ensures s[k..][i - k..j - k] == s[i..j]
    ensures s[k..][i - k..] == s[i..]
  {
  }

  lemma PairOfSingletons<T>(x: T, y: T)
    ensures [x] + [y] == [x, y]
  {
  }

}

=== FILE: single_receiver.dfy ===
/**
 * The receiving server of the plain viewer: it accepts one connection and
 * reads from it until an empty read or an exception, then closes the
 * connection and the listening socket for good. Its buffer starts empty
 * and is never reset; the latest frame is kept after the connection ends.
 */
module SingleReceiver {
  import opened Optional
  import opened Markers
  import opened FrameSlot
  import opened FrameDelimiter
  import opened Seqs

  /** The server thread is either still reading or has closed both sockets. */
  datatype Phase = Serving | Closed

  datatype State<F> = State(phase: Phase, buffer: seq<Byte>, latest: Option<F>)

  /** What `recv` does: return bytes (empty at end of stream) or raise. */
  datatype Read = Data(bytes: seq<Byte>) | Failed

  /** After the one `accept`: empty buffer, no frame yet. */
  function Init<F>(): State<F> {
    State(Serving, [], None)
  }

  /**
   * One pass of the read loop. An empty read or a failing `recv` ends the
   * loop with the buffer and frame as they were; a decoder that raises ends
   * it partway through the extraction, with the buffer already cut past the
   * failing slice and the frames decoded before it published.
   */
  function Next<F>(s: State<F>, r: Read, decode: seq<Byte> -> Option<F>, raises: seq<Byte> -> bool): (t: State<F>)
    requires s.phase == Serving
    ensures (r.Failed? || r == Data([])) ==> t == State(Closed, s.buffer, s.latest)
    ensures r.Data? && r.bytes != [] ==>
              var e := Extract(s.buffer + r.bytes);
              var k := FirstRaising(e.slices, raises);
              && (t.phase == Closed <==> k < |e.slices|)
              && t.latest == Publish(s.latest, e.slices[..k], decode)
              && (t.phase == Serving ==> t.buffer == e.residue)
              && (t.phase == Closed ==> Extract(t.buffer) == Extraction(e.slices[k + 1..], e.residue))
  {
    match r
    case Failed => State(Closed, s.buffer, s.latest)
    case Data(bytes) =>
      if bytes == [] then State(Closed, s.buffer, s.latest)
      else
        var d := Drain(s.buffer + bytes, s.latest, decode, raises);
        DrainSpec(s.buffer + bytes, s.latest, decode, raises);
        State(if d.raised then Closed else Serving, d.buffer, d.latest)
  }

  /** The reads the thread performs, in order; once closed it reads no more. */
  function Run<F>(s: State<F>, results: seq<Read>, decode: seq<Byte> -> Option<F>, raises: seq<Byte> -> bool): State<F>
    decreases |results|
  {
    if |results| == 0 || s.phase == Closed then s
    else Run(Next(s, results[0], decode, raises), results[1..], decode, raises)
  }

  /** The read is one that ends the loop whatever the decoder does. */
  predicate Ends(r: Read) {
    r.Failed? || r == Data([])
  }

  /** The bytes of the reads that deliver data. */
  function Payload(results: seq<Read>): seq<seq<Byte>>
    requires forall k | 0 <= k < |results| :: !Ends(results[k])
    decreases |results|
  {
    if |results| == 0 then []
    else
      assert !Ends(results[0]);
      [results[0].bytes] + Payload(results[1..])
  }

  /** Once closed, nothing changes any more: only one connection is ever served. */
  lemma ClosedIsFinal<F>(s: State<F>, results: seq<Read>, decode: seq<Byte> -> Option<F>, raises: seq<Byte> -> bool)
    requires s.phase == Closed
    ensures Run(s, results, decode, raises) == s
  {
  }

  /**
   * While the decoder does not raise, the state is one extraction over
   * everything received since start-up, with the latest frame the last
   * slice that decoded.
   */
  lemma {:induction false} ServingIsOneExtraction<F>(s: State<F>, results: seq<Read>, decode: seq<Byte> -> Option<F>, raises: seq<Byte> -> bool)
    requires s.phase == Serving && !HasBothMarkers(s.buffer)
    requires forall k | 0 <= k < |results| :: !Ends(results[k])
    requires NoneRaises(Extract(s.buffer + Flatten(Payload(results))).slices, raises)
    ensures var e := Extract(s.buffer + Flatten(Payload(results)));
            Run(s, results, decode, raises) == State(Serving, e.residue, Publish(s.latest, e.slices, decode))
    decreases |results|
  {
    var chunks := Payload(results);
    if |results| == 0 {
      EmptyAppend(s.buffer);
    } else {
      var rest := chunks[1..];
      assert Payload(results[1..]) == rest;
      var first := Extract(s.buffer + chunks[0]);
      var eb := Extract(first.residue + Flatten(rest));
      AppendAssoc(s.buffer, chunks[0], Flatten(rest));
      ExtractAppend(s.buffer + chunks[0], Flatten(rest));
      NoneRaisesAppend(first.slices, eb.slices, raises);
      DrainWithoutRaise(s.buffer + chunks[0], s.latest, decode, raises);
      var t := Next(s, results[0], decode, raises);
      assert t == State(Serving, first.residue, Publish(s.latest, first.slices, decode));
      ServingIsOneExtraction(t, results[1..], decode, raises);
      PublishAppend(s.latest, first.slices, eb.slices, decode);
    }
  }

  /**
   * The first empty or failed read closes the server with the buffer and
   * frame it had (unless a decoder throw closed it earlier, with the state
   * it had then), and later reads are never performed.
   */
  lemma {:induction false} StopsAtFirstEnd<F>(s: State<F>, results: seq<Read>, i: nat, decode: seq<Byte> -> Option<F>, raises: seq<Byte> -> bool)
    requires s.phase == Serving
    requires i < |results| && Ends(results[i])
    requires forall k | 0 <= k < i :: !Ends(results[k])
    ensures var before := Run(s, results[..i], decode, raises);
            Run(s, results, decode, raises) == State(Closed, before.buffer, before.latest)
    decreases i
  {
    if i > 0 {
      var t := Next(s, results[0], decode, raises);
      assert results[1..][..i - 1] == results[..i][1..];
      if t.phase == Closed {
        ClosedIsFinal(t, results[1..], decode, raises);
        ClosedIsFinal(t, results[..i][1..], decode, raises);
      } else {
        StopsAtFirstEnd(t, results[1..], i - 1, decode, raises);
      }
    }
  }

  /** The two cuts the read loop makes on the bytes of `DecoderRaiseExample`. */
  lemma RaiseExampleCuts(data: seq<Byte>, f1: seq<Byte>, f2: seq<Byte>)
    requires data == [0xFF, 0xD8, 0x41, 0xFF, 0xD9, 0xFF, 0xD9, 0xFF, 0xD8, 0x42, 0xFF, 0xD9]
    requires f1 == [0xFF, 0xD8, 0x41, 0xFF, 0xD9] && f2 == [0xFF, 0xD8, 0x42, 0xFF, 0xD9]
    ensures HasBothMarkers(data) && Step(data) == Cut(f1, data[5..])
    ensures HasBothMarkers(data[5..]) && Step(data[5..]) == Cut([], f2)
  {
    FirstCutOfExample(data, f1);
    assert data[5..] == [0xFF, 0xD9, 0xFF, 0xD8, 0x42, 0xFF, 0xD9];
    SecondCutOfExample(data[5..], f2);
  }

  /** The first cut: the first frame, and the stray end marker left in front of the second. */
  lemma FirstCutOfExample(data: seq<Byte>, f1: seq<Byte>)
    requires data == [0xFF, 0xD8, 0x41, 0xFF, 0xD9, 0xFF, 0xD9, 0xFF, 0xD8, 0x42, 0xFF, 0xD9]
    requires f1 == [0xFF, 0xD8, 0x41, 0xFF, 0xD9]
    ensures HasBothMarkers(data) && Step(data) == Cut(f1, data[5..])
  {
    assert MarkerAt(data, 0, Soi);
    FindIsFirst(data, Soi, 0);
    assert MarkerAt(data, 3, Eoi) && !MarkerAt(data, 0, Eoi) && !MarkerAt(data, 1, Eoi) && !MarkerAt(data, 2, Eoi);
    FindIsFirst(data, Eoi, 3);
  }

  /** The second cut: the end marker comes first, so the slice is empty and the second frame stays. */
  lemma SecondCutOfExample(rest: seq<Byte>, f2: seq<Byte>)
    requires rest == [0xFF, 0xD9, 0xFF, 0xD8, 0x42, 0xFF, 0xD9]
    requires f2 == [0xFF, 0xD8, 0x42, 0xFF, 0xD9]
    ensures HasBothMarkers(rest) && Step(rest) == Cut([], f2)
  {
    assert MarkerAt(rest, 0, Eoi);
    FindIsFirst(rest, Eoi, 0);
    assert MarkerAt(rest, 2, Soi) && !MarkerAt(rest, 0, Soi) && !MarkerAt(rest, 1, Soi);
    FindIsFirst(rest, Soi, 2);
  }

  /**
   * A throw from the decoder keeps what was decoded before it: on the read
   * `FF D8 41 FF D9  FF D9  FF D8 42 FF D9` with a decoder that raises on the
   * empty slice, the server closes showing the first frame, with the second
   * frame left undecoded in the buffer.
   */
  lemma DecoderRaiseExample<F>(data: seq<Byte>, f1: seq<Byte>, f2: seq<Byte>, decode: seq<Byte> -> Option<F>, raises: seq<Byte> -> bool)
    requires data == [0xFF, 0xD8, 0x41, 0xFF, 0xD9, 0xFF, 0xD9, 0xFF, 0xD8, 0x42, 0xFF, 0xD9]
    requires f1 == [0xFF, 0xD8, 0x41, 0xFF, 0xD9] && f2 == [0xFF, 0xD8, 0x42, 0xFF, 0xD9]
    requires !raises(f1) && raises([])
    ensures Next(Init(), Data(data), decode, raises) == State(Closed, f2, decode(f1))
  {
    RaiseExampleCuts(data, f1, f2);
    RaiseExampleDrain(data, data[5..], f1, f2, decode, raises);
    RaiseExampleNext(data, f1, f2, decode, raises);
  }

  /** The first read of the session runs the decoding loop on exactly the bytes read. */
  lemma RaiseExampleNext<F>(data: seq<Byte>, f1: seq<Byte>, f2: seq<Byte>, decode: seq<Byte> -> Option<F>, raises: seq<Byte> -> bool)
    requires data != [] && Drain(data, None, decode, raises) == Drained(f2, decode(f1), true)
    ensures Next(Init(), Data(data), decode, raises) == State(Closed, f2, decode(f1))
  {
    NextDrains(Init(), data, decode, raises);
    assert Init<F>().buffer + data == data;
  }

  /** A non-empty read runs the decoding loop on the buffer followed by the bytes read. */
  lemma NextDrains<F>(s: State<F>, bytes: seq<Byte>, decode: seq<Byte> -> Option<F>, raises: seq<Byte> -> bool)
    requires s.phase == Serving && bytes != []
    ensures var d := Drain(s.buffer + bytes, s.latest, decode, raises);
            Next(s, Data(bytes), decode, raises) == State(if d.raised then Closed else Serving, d.buffer, d.latest)
  {
  }

  /** The loop over the two cuts: the first slice is published, the second raises. */
  lemma RaiseExampleDrain<F>(data: seq<Byte>, rest: seq<Byte>, f1: seq<Byte>, f2: seq<Byte>, decode: seq<Byte> -> Option<F>, raises: seq<Byte> -> bool)
    requires HasBothMarkers(data) && Step(data) == Cut(f1, rest)
    requires HasBothMarkers(rest) && Step(rest) == Cut([], f2)
    requires !raises(f1) && raises([])
    ensures Drain(data, None, decode, raises) == Drained(f2, decode(f1), true)
  {
  }

}

=== FILE: viewer.dfy ===
/**
 * The display side of the receiver: the rotation setting, the recording
 * toggle and the periodic refresh that shows the latest frame and, while a
 * recording is open, writes it to the video file. Pixels are not modelled:
 * a displayed frame is the decoded frame paired with the number of
 * clockwise quarter-turns applied to it.
 */
module Viewer {
  import opened Optional

  /** The four settings the rotate button cycles through, in degrees. */
  predicate ValidAngle(angle: int) {
    angle == 0 || angle == 90 || angle == 180 || angle == 270
  }

  /**
   * `rotation_angle = (rotation_angle + 90) % 360`. Python's `%` and
   * Dafny's agree here because the divisor is positive.
   */
  function RotateCamera(angle: int): (r: int)
    ensures ValidAngle(angle) ==> ValidAngle(r)
    ensures 0 <= r < 360
    ensures ValidAngle(angle) ==> r != angle
  {
    (angle + 90) % 360
  }

  /** `n` presses of the rotate button. */
  function RotateTimes(angle: int, n: nat): int
    decreases n
  {
    if n == 0 then angle else RotateCamera(RotateTimes(angle, n - 1))
  }

  /**
   * `len(range(angle // 90))`: how many clockwise quarter-turns the refresh
   * applies. Python's `//` floors, like Dafny's `/` for a positive divisor,
   * and a negative range is empty.
   */
  function QuarterTurns(angle: int): (n: nat)
    ensures ValidAngle(angle) ==> n <= 3 && n * 90 == angle
  {
    if angle / 90 > 0 then angle / 90 else 0
  }

  /** One press moves the view one more quarter-turn, wrapping after four. */
  lemma QuarterTurnsStep(angle: int)
    requires ValidAngle(angle)
    ensures ValidAngle(RotateCamera(angle))
    ensures QuarterTurns(RotateCamera(angle)) == (QuarterTurns(angle) + 1) % 4
  {
    if angle == 0 {
      assert RotateCamera(angle) == 90;
    } else if angle == 90 {
      assert RotateCamera(angle) == 180;
    } else if angle == 180 {
      assert RotateCamera(angle) == 270;
    } else {
      assert RotateCamera(angle) == 0;
    }
  }

  /** `n` presses move the view `n` quarter-turns, modulo a full turn. */
  lemma {:induction false} QuarterTurnsCount(angle: int, n: nat)
    requires ValidAngle(angle)
    ensures ValidAngle(RotateTimes(angle, n))
    ensures QuarterTurns(RotateTimes(angle, n)) == (QuarterTurns(angle) + n) % 4
    decreases n
  {
    if n > 0 {
      var x := RotateTimes(angle, n - 1);
      var q: nat := QuarterTurns(angle) + n - 1;
      QuarterTurnsCount(angle, n - 1);
      assert ValidAngle(x) && QuarterTurns(x) == q % 4;
      QuarterTurnsStep(x);
      assert RotateTimes(angle, n) == RotateCamera(x);
      ModSucc(q);
      assert QuarterTurns(RotateCamera(x)) == (q % 4 + 1) % 4 == (q + 1) % 4;
    }
  }

  /** Counting one more quarter-turn commutes with wrapping at four. */
  lemma ModSucc(q: nat)
    ensures (q % 4 + 1) % 4 == (q + 1) % 4
  {
    var d := q / 4;
    assert q == 4 * d + q % 4;
    if q % 4 < 3 {
      assert q + 1 == 4 * d + (q % 4 + 1);
    } else {
      assert q + 1 == 4 * (d + 1);
    }
  }

  /** Four presses restore the original setting. */
  lemma FourRotationsRestore(angle: int)
    requires ValidAngle(angle)
    ensures RotateTimes(angle, 4) == angle
  {
    QuarterTurnsCount(angle, 4);
  }

  /** Starting from the initial setting 0, the angle is always one of the four settings. */
  lemma AngleAlwaysValid(n: nat)
    ensures ValidAngle(RotateTimes(0, n))
    ensures RotateTimes(0, n) == 90 * (n % 4)
  {
    QuarterTurnsCount(0, n);
  }

  /** Recording state: the flag and the open video writer, if any. */
  datatype Recorder<W> = Recorder(recording: bool, out: Option<W>)

  /** `recording = False`, `out = None` at start-up. */
  function InitialRecorder<W>(): Recorder<W> {
    Recorder(false, None)
  }

  /** The flag is set exactly when a writer is open. */
  predicate Consistent<W>(r: Recorder<W>) {
    r.recording <==> r.out.Some?
  }

  /**
   * The record button. Starting opens `writer` (a new writer); stopping
   * clears the flag and releases the writer if there is one.
   */
  function ToggleRecording<W>(r: Recorder<W>, writer: W): (t: Recorder<W>)
    ensures t.recording != r.recording
    ensures t.recording ==> t.out == Some(writer)
    ensures !t.recording ==> t.out.None?
  {
    if !r.recording then Recorder(true, Some(writer))
    else Recorder(false, None)
  }

  /** Toggling keeps the flag and the writer in step, whatever the state before. */
  lemma ToggleConsistent<W>(r: Recorder<W>, writer: W)
    ensures Consistent(ToggleRecording(r, writer))
  {
  }

  /**
   * Start then stop returns a stopped recorder to where it was; the state
   * at start-up is one such, and pressing twice from it gives it back.
   */
  lemma ToggleTwiceRestores<W>(r: Recorder<W>, w1: W, w2: W)
    requires Consistent(r) && !r.recording
    ensures ToggleRecording(ToggleRecording(r, w1), w2) == r
    ensures Consistent(InitialRecorder<W>()) && !InitialRecorder<W>().recording
    ensures ToggleRecording(ToggleRecording(InitialRecorder(), w1), w2) == InitialRecorder()
  {
  }

  /** A frame as drawn: the decoded frame turned clockwise `turns` times. */
  datatype Oriented<F> = Oriented(frame: F, turns: nat)

  /** What one refresh does. */
  datatype Refresh<F, W> = Refresh(shown: Option<Oriented<F>>, written: Option<(W, Oriented<F>)>, cleared: bool)

  /**
   * One refresh of the window. `turns` is 0 for the single-connection
   * viewer (it never rotates) and `QuarterTurns(rotation_angle)` for the
   * rotating one. The picture is cleared only when there is no frame and
   * no live connection; the single-connection viewer never clears it, which
   * is this function with `connAlive` true.
   */
  function UpdateFrame<F, W>(latest: Option<F>, turns: nat, rec: Recorder<W>, connAlive: bool): (t: Refresh<F, W>)
    ensures t.shown.Some? <==> latest.Some?
    ensures latest.Some? ==> t.shown == Some(Oriented(latest.value, turns))
    ensures t.written.Some? <==> latest.Some? && rec.recording && rec.out.Some?
    ensures t.written.Some? ==> t.shown == Some(t.written.value.1) && Some(t.written.value.0) == rec.out
    ensures t.cleared <==> latest.None? && !connAlive
  {
    if latest.Some? then
      var shown := Oriented(latest.value, turns);
      var written := if rec.recording && rec.out.Some? then Some((rec.out.value, shown)) else None;
      Refresh(Some(shown), written, false)
    else
      Refresh(None, None, !connAlive)
  }

  /**
   * After `n` presses of the rotate button from start-up, every refresh
   * shows the latest frame turned clockwise `n mod 4` times, and writes it
   * so when recording.
   */
  lemma ShownAfterPresses<F, W>(f: F, n: nat, rec: Recorder<W>, connAlive: bool)
    ensures var t := UpdateFrame(Some(f), QuarterTurns(RotateTimes(0, n)), rec, connAlive);
            && t.shown == Some(Oriented(f, n % 4))
            && (t.written.Some? ==> t.written.value.1 == Oriented(f, n % 4))
  {
    QuarterTurnsCount(0, n);
  }

  /** Nothing is written once recording has been stopped. */
  lemma NoWriteAfterStop<F, W>(latest: Option<F>, turns: nat, r: Recorder<W>, writer: W, connAlive: bool)
    requires r.recording
    ensures UpdateFrame(latest, turns, ToggleRecording(r, writer), connAlive).written.None?
  {
  }

  /** While a recording is open, every refresh with a frame writes it to that recording's writer. */
  lemma WritesWhileRecording<F, W>(f: F, turns: nat, r: Recorder<W>, writer: W, connAlive: bool)
    requires !r.recording
    ensures UpdateFrame(Some(f), turns, ToggleRecording(r, writer), connAlive).written == Some((writer, Oriented(f, turns)))
  {
  }

}
